=== FILE: README.md ===
# Greedy sailing router — a Dafny model of its core

The router sails a boat from waypoint to waypoint through a wind forecast, in
ten-minute ticks. Every tick it reads the wind at the boat and scans the 302
signed true wind angles 30..180 on both tacks. It looks each angle up in the
boat's polar table and takes the heading with the best velocity made good
(VMG) towards the waypoint. A tack or gybe against the previous tick halves
that tick's speed. The boat then moves on a flat chart. A leg ends on arrival
within 0.05 degrees, or when the forecast horizon or the time budget is
reached.

The model has one module per source file:

| module | file | models |
|---|---|---|
| `Stamina` | stamina.dfy | crew fatigue: the rule document, `consume`, `recover`, `speed_factor` |
| `Manoeuvre` | manoeuvre.dfy | tack/gybe detection and the live `apply_manoeuvre_with_stamina` |
| `Paths` | paths.dfy | POSIX `os.path.join` and a file-system snapshot (`Disk`) |
| `Polar` | polar.dfy | the `Polar` constructor's path, numpy `interp`, `get_bsp`, `get_speed` |
| `PolarSearch` | polar_search.dfy | `best_twa`, `best_vmg_upwind`, `best_vmg_downwind` |
| `Loader` | loader.dfy | `get_polar_path` |
| `Grib` | grib.dfy | `uv_to_tws_twd`, `GribFile.get_wind`, `wind_at_position`, the two u/v interpolations, `wind_along_route` |
| `Engine` | engine.dfy | `angle_diff`, `bearing_to`, `choose_heading`, `advance_boat`, `run_route` |
| `Scoring` | scoring.dfy | `normalize_angle`, `angle_diff`, `score_heading` |
| `Numerics`, `Wrappers` | numerics.dfy, wrappers.dfy | Python's float `%`, `//`, `int()`, `round()`, numpy `clip`; `Result`/`Option` |

Conventions:

- Python exceptions are `Failure` values of `Result`. The exception type is
  kept (`FileNotFound`, `IsADirectory`, `KeyError`, `ValueError`,
  `IndexError`, `ZeroDivision`, `TypeError`).
- Objects that the source mutates (`StaminaModel`, `BoatState`, the track
  list) become values. Each operation returns the next value.
- Floats are exact reals.
- Python's `%` and `round` are written out: `PyMod` gives a remainder with
  the divisor's sign; `Round` rounds half to even.
- `math.cos`, `math.sin`, `math.atan2` and `math.sqrt` are fields of a
  `MathLib` value passed in. `Numerics.Sound` lists the only facts used
  about them:
  - cos and sin lie in [-1, 1];
  - cos 0 = 1 and sin 0 = 0;
  - atan2 lies in (-180, 180], with atan2(0, x) = 0 for x > 0 and
    atan2(y, 0) = 90 for y > 0;
  - sqrt is a non-negative root.
- The forecast dataset (xarray) is a `Grib.Forecast`:
  - the length of its `time` dimension;
  - the `step` coordinate in whole minutes;
  - a nearest-grid-point reader;
  - a bilinear reader that may fail.
- A polar file's parsed content is a `Polar.Table`. The disk is a
  `Paths.Disk` snapshot in which no path is both a file and a directory
  (`Disk.Valid`).

Where the code behaves differently from what its names suggest, the model
follows the code:

- `detect_manoeuvre` maps a turn of exactly 180 degrees to -180: the turn
  lies in [-180, 180) (`Manoeuvre.Turn`).
- `detect_manoeuvre` tests its upwind and downwind regimes on the signed
  previous angle. From a previous angle of -15 or less no turn is a
  manoeuvre, so 45 to -45 is a tack but -45 to 45 is free
  (`Manoeuvre.PortSideNeverPenalised`, `Manoeuvre.MirrorTackAsymmetry`).
- `run_route` fixes the forecast horizon at 180 minutes per step
  (`Engine.Horizon`). `get_wind` reads the spacing from the data
  (`Grib.StepSpacing`). The two disagree when the steps are not three hours
  apart.
- For a forecast with a `time` dimension and no `step` dimension, `get_wind`
  falls back to 60 minutes per entry and does not clamp the index. With n
  entries, every time from minute 60·n on raises IndexError
  (`Grib.TimeOnlyRunsOut`). `run_route` still allows (n − 1)·180 minutes,
  which is more for n ≥ 2, so a route still under way at minute 60·n ends
  in IndexError (`Engine.TimeOnlyHorizonOverreaches`).
- `get_wind` returns the wind speed in m/s (`Grib.GetWindIsUnconverted`).
  `uv_to_tws_twd` returns it in knots. The engine looks the m/s value up in
  a polar table indexed by knots.
- `advance_boat` passes the signed TWA of the last tick as the "previous
  heading" of `detect_manoeuvre` (`Engine.TickSpeed`).
- `advance_boat` never changes the boat's stamina, because it calls the
  manoeuvre penalty without a stamina model (`Engine.AdvanceBoat`).
- The loader and the `Polar` constructor build the same file name exactly
  for no option, "nu", and the non-blank options that do not start with
  "nu" (`Loader.AgreesWithPolarExactly`). They differ for every blank
  option and for every other option starting with "nu": "nu+foils", but
  also "nuit" (`Loader.DisagreesWithPolar`, `Loader.BlankOption`,
  `Loader.DoublePrefix`).

## Model

| member | source | states |
|---|---|---|
| Stamina.New | routing/stamina.py:9-17 | a missing rule document raises FileNotFoundError naming the stamina file; otherwise the model holds the given stamina and the loaded rules |
| Stamina.NewStartsFull | routing/stamina.py:9-11 | by default a new model starts at stamina 100 |
| Stamina.WindFactor | routing/stamina.py:37-41 | the wind factor is that of the last rule in table order whose threshold the wind reaches, and 1 when none does |
| Stamina.Consume | routing/stamina.py:33-45 | an unknown manoeuvre is a KeyError; otherwise stamina drops by base cost times wind factor, floored at 0, and the rules are unchanged |
| Stamina.ConsumeNeverIncreases | routing/stamina.py:43-44 | with non-negative costs and factors, consuming keeps stamina in [0, previous stamina] |
| Stamina.RecoveryTime | routing/stamina.py:23-27 | the recovery time is the rest time clamped to [lo, hi]: a time inside the window is used unchanged, a longer one gives hi, a shorter one gives lo; when lo exceeds hi the time is always lo |
| Stamina.Recover | routing/stamina.py:19-31 | a zero recovery time is a ZeroDivisionError; otherwise stamina gains points/time·minutes, capped at 100 |
| Stamina.RecoverNeverDecreases | routing/stamina.py:27-30 | resting for a non-negative time never lowers stamina and never lifts it above 100 |
| Stamina.SpeedFactor | routing/stamina.py:47-57 | the factor is the stamina-0 impact at or below 0, the stamina-100 impact at or above 100, and always between the two |
| Numerics.Lerp | routing/stamina.py:56-57 | the straight line between two values starts at the first, ends at the second, and stays between them for weights in [0, 1] |
| Stamina.SpeedFactorIsClampedLerp | routing/stamina.py:51-57 | the factor is the straight line between the two impacts evaluated at the stamina clamped to [0, 100] |
| Stamina.ReplayStaysInRange | routing/stamina.py:19-45 | any run of consumptions and non-negative rests keeps stamina in [0, 100] and the rules unchanged |
| Manoeuvre.Turn | routing/manoeuvre.py:43 | the signed turn lies in [-180, 180) |
| Manoeuvre.TurnCongruent | routing/manoeuvre.py:43 | the turn differs from next − prev by whole circles |
| Manoeuvre.TurnUnique | routing/manoeuvre.py:43 | the turn is the only angle in [-180, 180) congruent to next − prev |
| Manoeuvre.Detect | routing/manoeuvre.py:37-53 | tack iff the turn exceeds 30 and prev is within 60 of 45; gybe iff it exceeds 30, the tack test fails and prev is within 90 of 180; no manoeuvre for turns of 30 or less |
| Manoeuvre.NoTurnNoManoeuvre | routing/manoeuvre.py:43-53 | keeping the same angle is never a manoeuvre |
| Manoeuvre.FullCirclesNoManoeuvre | routing/manoeuvre.py:43-53 | turning by whole circles is never a manoeuvre |
| Manoeuvre.OverlapIsTack | routing/manoeuvre.py:45-51 | between 90 and 105 both regimes hold and the tack test wins |
| Manoeuvre.Examples | routing/manoeuvre.py:37-53 | 45→85 is a tack, 180→220 a gybe, 90→95 nothing |
| Manoeuvre.PortSideNeverPenalised | routing/manoeuvre.py:45-53 | a previous angle of -15 or less lies in neither regime, so no turn from it is a manoeuvre |
| Manoeuvre.MirrorTackAsymmetry | routing/manoeuvre.py:43-53 | 45→−45 is a tack while −45→45 is nothing |
| Manoeuvre.BasePenalty | routing/manoeuvre.py:80-83 | the kept share of speed lies in (0, 1) and is larger with the equipment bonus |
| Manoeuvre.Apply | routing/manoeuvre.py:59-93 | without a stamina model the call succeeds with speed·penalty rounded to 2 and no stamina; with one, it fails exactly when consume fails and otherwise scales by the tired crew's speed factor and reports the stamina rounded to 1 |
| Manoeuvre.KeepsPenaltyShare | routing/manoeuvre.py:81-89 | without a stamina model the speed after a manoeuvre is speed·penalty to within 0.005 |
| Manoeuvre.WithoutCrewNeverFails | routing/manoeuvre.py:74-78 | without a stamina model no manoeuvre name can make the call fail |
| Manoeuvre.DurationIsInert | routing/manoeuvre.py:62-93 | the duration only comes back in the result and changes nothing else |
| Manoeuvre.StalledStaysStalled | routing/manoeuvre.py:85-89 | a stalled boat stays stalled |
| Paths.Join | polaire/polar.py:33 | os.path.join: an absolute part replaces the path; otherwise the part ends the result, after a single separator |
| Paths.JoinUnder | polaire/loader.py:26 | joining onto a directory keeps it as prefix followed by one separator and the name |
| Polar.LStrip | polaire/polar.py:24 | lstrip removes exactly the leading white space |
| Polar.RStrip | polaire/polar.py:24 | rstrip removes exactly the trailing white space |
| Polar.StripEmptyIffBlank | polaire/polar.py:24 | strip() is empty iff the option is all white space |
| Polar.NormaliseOption | polaire/polar.py:23-29 | the normalised option starts with "nu"; no option or a blank one is "nu"; otherwise the option itself or "nu+" before it |
| Polar.NormaliseIdempotent | polaire/polar.py:23-29 | normalising twice equals normalising once |
| Polar.Filename | polaire/polar.py:32 | the file name is the class, a dash, the option and ".csv" |
| Polar.FilenameInjective | polaire/polar.py:32 | for one class, different options give different file names |
| Polar.PolarPathShape | polaire/polar.py:31-33 | the polar lives at data/polaires/<class>/<class>-<option>.csv |
| Polar.Load | polaire/polar.py:35-40 | a missing path raises FileNotFoundError on it; a directory raises IsADirectoryError; success exactly when the path is a file, yielding its table |
| Polar.SeqMin | polaire/polar.py:54-55 | min() is an element at or below every element |
| Polar.SeqMax | polaire/polar.py:54-55 | max() is an element at or above every element |
| Polar.LastAtMost | polaire/polar.py:59 | the segment numpy interpolates on starts at the last sample at or below x |
| Polar.Interp | polaire/polar.py:59-62 | numpy interp lies between the smallest and largest sample value |
| Polar.Segment | polaire/polar.py:59-62 | the interpolated value on one segment lies between its ends |
| Polar.InterpAtNode | polaire/polar.py:59-62 | on a strictly ascending axis, interpolating at a sample returns that sample |
| Polar.Column | polaire/polar.py:59 | bsp_matrix[:, i] holds entry i of every row |
| Polar.SpeedsAtTwa | polaire/polar.py:57-60 | the first stage holds one interpolation along TWA per tabulated wind speed |
| Polar.GetBsp | polaire/polar.py:51-64 | an empty axis raises ValueError; otherwise the speed lies between the smallest and largest cell of the table |
| Polar.GetSpeed | polaire/polar.py:66-67 | get_speed answers as get_bsp |
| Polar.GetBspSymmetric | polaire/polar.py:52 | port and starboard angles give the same speed |
| Polar.GetBspClampsTws | polaire/polar.py:55 | a wind speed beyond the axis reads as the axis end |
| Polar.GetBspClampsTwa | polaire/polar.py:52-54 | on an axis of non-negative angles, an angle beyond it on either tack reads as the axis end |
| Polar.GetBspAtNode | polaire/polar.py:51-64 | on strictly ascending axes a tabulated angle and wind speed give the tabulated speed |
| Polar.AscendingEnds | polaire/polar.py:54-55 | on a strictly ascending axis min is the first sample and max the last |
| PolarSearch.ArgMax | polaire/polar.py:72-78 | the scan ends with the first angle of the largest score above the initial one, or none if nothing beats it, and nothing scanned beats the result |
| PolarSearch.BestTwa | polaire/polar.py:69-79 | an empty axis raises; otherwise the first fastest whole angle from int(min) to int(max), none if no speed beats 0 |
| PolarSearch.BestVmgUpwind | polaire/polar.py:81-93 | the first angle in 30..90 of largest speed·cos(angle), its speed and VMG |
| PolarSearch.BestVmgDownwind | polaire/polar.py:95-107 | the first angle in 90..150 of largest speed·cos(180 − angle), its speed and VMG |
| Loader.LoaderFilename | polaire/loader.py:21-24 | no option or "nu" gives <class>-nu.csv; anything else <class>-nu+<option>.csv |
| Loader.GetPolarPath | polaire/loader.py:6-31 | a missing class directory raises FileNotFoundError on the class; then a missing file raises it on the path; otherwise the path |
| Loader.GetPolarPathIsFile | polaire/loader.py:16-31 | a returned path is an existing file, not a directory, inside an existing class directory |
| Loader.SameBaseDir | polaire/loader.py:3 | the loader and the constructor start from the same directory |
| Loader.AgreesWithPolar | polaire/loader.py:21-24 | for no option, "nu", or a non-blank option not starting with "nu", the loader and the constructor name the same file |
| Loader.DisagreesWithPolar | polaire/loader.py:21-24 | for a blank option and for any option other than "nu" starting with "nu", the two name different files |
| Loader.AgreesWithPolarExactly | polaire/loader.py:21-24 | the two name the same file if and only if the option is absent, "nu", or non-blank and not starting with "nu" |
| Loader.DoublePrefix | polaire/loader.py:24 | for "nu+foils" the loader looks for <class>-nu+nu+foils.csv, the constructor for <class>-nu+foils.csv |
| Loader.BlankOption | polaire/loader.py:21-24 | for "" the loader looks for <class>-nu+.csv, the constructor for <class>-nu.csv |
| Grib.WindDirection | meteo/grib.py:21 | the direction the wind comes from lies in [0, 360) |
| Grib.UvToTwsTwd | meteo/grib.py:19-22 | the speed in knots is non-negative and the direction lies in [0, 360) |
| Grib.CalmHasNoSpeed | meteo/grib.py:20 | no wind has no speed |
| Grib.ReversedWindSameSpeed | meteo/grib.py:20 | reversing the wind vector keeps its speed |
| Grib.CompassConvention | meteo/grib.py:21 | an eastward wind comes from 270 and a northward one from 180 |
| Grib.Isel | meteo/grib.py:66 | Python indexing succeeds exactly in [-size, size) and then picks the slot counted from the end for negatives; otherwise IndexError |
| Grib.StepSpacing | meteo/grib.py:43-53 | the gap between the first two steps, or 60 minutes without two steps |
| Grib.StepIndex | meteo/grib.py:55-60 | the slice index is time // spacing, clamped above by the last step when the step count is known |
| Grib.StepIndexBeyondHorizon | meteo/grib.py:58-60 | from the start of the last step on, every time reads the last step |
| Grib.StepIndexInRange | meteo/grib.py:55-60 | a non-negative time reads an existing step |
| Grib.StepIndexNegative | meteo/grib.py:55-60 | a negative time gives a negative index (no lower clamp) |
| Grib.ReadUv | meteo/grib.py:41-88 | a zero spacing divides by zero; no time or step dimension raises ValueError; otherwise the read succeeds exactly when the slice index (clamped only when a step dimension exists) is a valid Python index of the read dimension, time if present else step, fails with IndexError otherwise, and returns the nearest point of that slice |
| Grib.GetWind | meteo/grib.py:33-92 | fails exactly as the read does; otherwise the m/s speed and direction of the u/v read |
| Grib.GetWindIsUnconverted | meteo/grib.py:90-92 | the speed get_wind returns times 1.94384 is uv_to_tws_twd's speed; the directions agree |
| Grib.SpeedIsUnconverted | meteo/grib.py:90-92 | the same for any u/v pair |
| Grib.GetWindBeyondHorizon | meteo/grib.py:55-60 | past the last step the forecast's last step is read |
| Grib.TimeOnlyRunsOut | meteo/grib.py:51-66 | with n time entries and no step dimension, every time from minute 60·n on raises IndexError |
| Grib.UvSpeedDirection | meteo/grib.py:90-91 | the speed is non-negative and the direction lies in [0, 360) |
| Grib.GfsLongitude | meteo/grib.py:101-103 | a negative longitude is shifted by 360; longitudes of one turn around 0 land in [0, 360) |
| Grib.WindAtPosition | meteo/grib.py:99-136 | no step dimension raises; a bad step index fails; otherwise the bilinear value, or the nearest one when that fails, rounded 3/3/2/1 |
| Grib.WindAtPositionWraps | meteo/grib.py:101-103 | a longitude and the same longitude one turn west read the same wind |
| Grib.InterpolateUv | meteo/grib.py:186-189 | alpha 0 gives the first pair, alpha 1 the second, equal pairs stay put; for alpha in [0, 1] each component lies between its two values |
| Grib.InterpolateUvTime | meteo/grib.py:165-168 | interpolate_uv_time is interpolate_uv |
| Grib.FirstHourPoints | meteo/grib.py:159 | the number of points covering the first hour is ceil(60 / step length) |
| Grib.StepAtClosedForm | meteo/grib.py:144-160 | the step index of point i is step_start, plus one for every point after the first hour is covered |
| Grib.StepAtNonPositive | meteo/grib.py:159-160 | a non-positive step length never advances the step |
| Grib.WindAlongRoute | meteo/grib.py:142-162 | one entry per point in order with that point's wind at its step; succeeds iff every point does; a failure is some point's error |
| Engine.AngleDiff | routing/engine.py:12-14 | the angle between two directions lies in [0, 180] |
| Engine.AngleDiffSymmetric | routing/engine.py:12-14 | it does not depend on the order of the directions |
| Engine.AngleDiffSameDirection | routing/engine.py:12-14 | directions whole circles apart are 0 apart |
| Engine.BearingTo | routing/engine.py:17-20 | the bearing lies in [0, 360) |
| Engine.BearingCompass | routing/engine.py:17-20 | due north is 0 and due east is 90 |
| Engine.CandidateTwa | routing/engine.py:54-56 | candidate k has magnitude 30..180, negative for even k |
| Engine.CandidatesCoverAngles | routing/engine.py:54-56 | every signed whole angle 30..180 is a candidate, the negative one just before the positive |
| Engine.Evaluate | routing/engine.py:56-64 | a candidate is skipped iff the polar has no speed; otherwise heading (twd + twa) % 360 and VMG speed·cos(angle to bearing) |
| Engine.Candidates | routing/engine.py:54-64 | the 302 candidates in scan order |
| Engine.BestCandidate | routing/engine.py:66-67 | none iff no candidate has a speed; otherwise a candidate of largest VMG, and no earlier one ties it |
| Engine.SafeTime | routing/engine.py:47 | the queried time is the state's time, pulled back below the horizon |
| Engine.WindFor | routing/engine.py:47-48 | before the horizon the wind is read at the state's time; at or past it, at the horizon's last minute |
| Engine.ChooseHeading | routing/engine.py:46-73 | fails exactly when the wind read fails; without any speed falls back to the bearing at speed 0; otherwise the first candidate angle, in scan order, whose VMG no candidate exceeds, with its heading and polar speed |
| Engine.ChosenHeadingInRange | routing/engine.py:57 | a chosen heading lies in [0, 360) |
| Engine.ChosenFacts | routing/engine.py:54-68 | a chosen heading has a wind angle of 30 to 180 degrees either side, lies that angle off the wind direction, sails at the polar speed for that angle, and no candidate with a speed has a greater VMG |
| Engine.FirstBestUnique | routing/engine.py:66-67 | only one candidate can be the first, in scan order, whose VMG none exceeds, so the choice is determined |
| Engine.PolarSpeed | routing/engine.py:59 | on a table with both axes the polar lookup answers for every wind speed and angle, with get_speed's value |
| Engine.PolarNeverFallsBack | routing/engine.py:59-61 | with a polar table every candidate has a speed, so the fallback never happens |
| Engine.TickSpeed | routing/engine.py:87-97 | no manoeuvre keeps the speed; a tack or gybe halves it, rounded to 2 |
| Engine.AdvanceBoat | routing/engine.py:78-110 | at or past the horizon nothing changes; otherwise one 10-minute tick on the chosen heading with the tick speed, and the new position appended to the track |
| Engine.Displacement | routing/engine.py:99-101 | a boat at speed 0 does not move; on heading 0 a tick moves it speed/360 degrees north and not east |
| Engine.DisplacementBounded | routing/engine.py:99-101 | a tick moves the boat at most speed/360 degrees on either axis |
| Engine.Horizon | routing/engine.py:118-122 | the horizon is (steps − 1)·180, else (times − 1)·180; neither dimension raises TypeError |
| Engine.TimeOnlyHorizonOverreaches | routing/engine.py:46-48 | with n ≥ 2 time entries and no step dimension the horizon exceeds 60·n, and choose_heading raises IndexError from minute 60·n up to the horizon |
| Engine.SquaredDistance | routing/engine.py:137 | the squared planar distance from a position to the waypoint is non-negative |
| Engine.ArrivedIffClose | routing/engine.py:137-138 | arrival is a squared planar distance below 0.0025 |
| Engine.RunLeg | routing/engine.py:127-139 | the track keeps its prefix and gains one point per tick, the last being the boat's position; a leg started before the bound takes at least one tick; time stops within one tick past the bound; stopping before the bound means arrival, and no earlier point of the leg was within 0.05 of the waypoint, so the leg stops at its first arrival; a failing first tick is the leg's error |
| Engine.RunLegs | routing/engine.py:126-139 | the legs run in order, each by RunLeg; at or past the bound nothing moves; stopping before the bound means arrival at the last waypoint |
| Engine.LegNotArrivedEarlier | routing/engine.py:136-139 | a tick that did not arrive followed by the rest of the leg leaves no arrival before the leg's last point |
| Engine.LegsCompose | routing/engine.py:126-139 | a first leg followed by the remaining legs extends the track through both, and arrival at the end of the rest is arrival at the last waypoint |
| Engine.RunRoute | routing/engine.py:115-141 | the track starts at the start, ends at the final position and has one point per tick; a horizon error propagates; with a horizon, a start at or past the bound succeeds without moving; finishing before the bound means arrival at the last waypoint |
| Scoring.NormalizeAngle | routing/scoring.py:4-5 | the result lies in [0, 360) |
| Scoring.NormalizeAngleKeepsDirection | routing/scoring.py:4-5 | the result differs from the input by whole turns, and [0, 360) is left alone |
| Scoring.NormalizeAngleIdempotent | routing/scoring.py:4-5 | normalising twice is normalising once |
| Scoring.AngleDiff | routing/scoring.py:8-10 | the angle between two directions lies in [0, 180] |
| Scoring.AngleDiffAgrees | routing/scoring.py:8-10 | the scoring angle_diff equals the engine's |
| Scoring.AngleDiffPeriodic | routing/scoring.py:8-10 | turning a direction by whole turns does not change its angle to another |
| Scoring.AngleDiffSymmetric | routing/scoring.py:8-10 | the order of the directions does not matter |
| Scoring.OrientationBonus | routing/scoring.py:38-39 | the bonus lies in [0, 9] |
| Scoring.OrientationBonusShape | routing/scoring.py:38-39 | 9 on the beam, 0 head to wind and dead downwind, rising towards the beam, symmetric about it |
| Scoring.DistancePenalty | routing/scoring.py:42 | the penalty lies in [0, 90] and is 0 iff the heading is the bearing |
| Scoring.VmgWithinSpeed | routing/scoring.py:32 | the VMG lies within ±speed and is the speed straight at the waypoint |
| Scoring.PenaltyComesOff | routing/scoring.py:45-51 | a manoeuvre penalty lowers the score one for one |
| Scoring.WindRaisesScore | routing/scoring.py:35-51 | each knot of wind adds 0.3 |
| Scoring.StraightAtWaypoint | routing/scoring.py:28-51 | heading at the waypoint scores twice the speed plus the bonuses less the penalty |
| Scoring.ScoreIgnoresTurns | routing/scoring.py:13-53 | headings whole turns apart score the same |
| Scoring.ScoreHeading | routing/scoring.py:13-53 | with a non-negative speed the score lies between −2·speed + 0.3·tws − penalty − 90 and 2·speed + 0.3·tws + 9 − penalty |
| Numerics.PyModPeriodic | routing/engine.py:13 | Python's % ignores whole multiples of the modulus |
| Numerics.RoundIsClose | routing/manoeuvre.py:89-92 | round(x, n) is within half a unit of the n-th decimal |

## Left out

- Reading files is left out. The polar CSV (pandas), the stamina JSON and the
  GRIB file (xarray) arrive already parsed: a `Polar.Table`, a
  `Stamina.Rules`, a `Grib.Forecast`. Column headers are taken as numbers
  and wind keys as integers already.
- Floating point, NaN and infinities are left out; numbers are exact reals.
  Bilinear interpolation that yields NaN, or raises, is the `linear` reader
  answering `None`.
- xarray's own interpolation and nearest-point search are left out. They
  are parameters of `Grib.Forecast`; the nearest reader is taken to succeed.
- The first definition of `apply_manoeuvre_with_stamina`
  (routing/manoeuvre.py:5-36) is left out: the second one replaces it at
  import time.
- `wind_at_position_time` and `wind_at_point_time` (meteo/grib.py:171-212)
  are left out. They only compose the modelled interpolation with xarray
  reads.
- The `time` coordinate of `get_wind` is left out: a `time` dimension is
  read by index, as the source does. Step offsets finer than a minute are
  truncated to whole minutes.
- Logging `print` calls and the `dt` parameter of `run_route` are left out;
  `run_route` never uses `dt`.
- geo/advance.py and routing/motion.py are not part of this model.
- In `advance_boat`, a forecast without `max_time_minutes` is left out.
  `run_route` always sets it, and `choose_heading` would raise
  AttributeError without it. The model carries the horizon in
  `Engine.Weather`.
- `waypoint.bearing_from`, called by `score_heading`, does not exist on the
  engine's `Waypoint`. The bearing is a parameter of `Scoring.ScoreHeading`.
- Polar.Interp: the contract bounds the result and fixes it at sample
  points. It does not restate numpy's formula between samples. For unsorted
  sample points numpy gives no defined answer, and neither does the model.
- Engine.PolarSpeed: the polar lookup asks for non-empty axes. With an
  empty axis `get_speed` raises ValueError inside `choose_heading`; the
  model's speed oracle cannot fail, so that exception is not modelled.
- Grib.WindAtPosition: the rounded direction may be 360.0, as Python's
  `round(359.96, 1)` is. The contract gives only the lower bound 0.
- Engine.RunLegs: the stop at the first arrival is stated for each leg by
  RunLeg; the whole-route contract restates only the last leg's arrival.
- Engine.RunRoute: the contract does not state that a run terminates in
  ARRIVED before the horizon for a reachable waypoint. Whether it does
  depends on the forecast and polar values.

=== FILE: engine.dfy ===
/** The greedy router (routing/engine.py).

  Every tick the boat takes the heading with the best velocity made good
  (VMG) towards the current waypoint, among the 302 signed true wind angles
  30..180 on either tack, and sails it for ten minutes on a flat chart (no
  cos(latitude) correction). A detected tack or gybe halves the speed of
  that tick. Legs end on arrival within 0.05 degrees of the waypoint or when
  the forecast or the time budget runs out.

  The source mutates the state and appends to the track in place; here each
  step returns the new state and track. The forecast is `Grib.Forecast`; the
  `max_time_minutes` attribute that `run_route` sets on it travels with it
  in `Weather`. The polar is a speed lookup that may answer nothing, as the
  `bsp is None` test of `choose_heading` allows; `PolarSpeed` adapts a
  `Polar.Table`, which always answers.
 */
module Engine {
  import opened Wrappers
  import opened Numerics
  import Grib
  import Manoeuvre
  import Polar

  /** Minutes per tick. */
  const Tick: int := 10

  // ---------------------------------------------------------------------
  // Utilities
  // ---------------------------------------------------------------------

  /** `angle_diff(a, b)`: the angle between two directions, in [0, 180]. */
  function AngleDiff(a: real, b: real): (d: real)
    ensures 0.0 <= d <= 180.0
  {
    var d := PyMod(Abs(a - b), 360.0);
    if d <= 180.0 then d else 360.0 - d
  }

  /** The angle between two directions does not depend on their order. */
  lemma AngleDiffSymmetric(a: real, b: real)
    ensures AngleDiff(a, b) == AngleDiff(b, a)
  {
    assert Abs(a - b) == Abs(b - a);
  }

  /** Directions a whole number of turns apart are the same direction. */
  lemma AngleDiffSameDirection(a: real, k: int)
    ensures AngleDiff(a + k as real * 360.0, a) == 0.0
  {
    var n := if k >= 0 then k else -k;
    assert Abs(a + k as real * 360.0 - a) == 0.0 + n as real * 360.0;
    PyModUnique(Abs(a + k as real * 360.0 - a), 360.0, 0.0, n);
  }

  /** `bearing_to(lat1, lon1, lat2, lon2)`: the planar bearing, clockwise
      from north, in [0, 360). */
  function BearingTo(m: MathLib, lat1: real, lon1: real, lat2: real, lon2: real): (b: real)
    ensures 0.0 <= b < 360.0
  {
    var dy := lat2 - lat1;
    var dx := lon2 - lon1;
    PyMod(m.atan2Deg(dx, dy) + 360.0, 360.0)
  }

  /** Due north is 0 and due east is 90. */
  lemma BearingCompass(m: MathLib, lat: real, lon: real, d: real)
    requires Sound(m) && d > 0.0
    ensures BearingTo(m, lat, lon, lat + d, lon) == 0.0
    ensures BearingTo(m, lat, lon, lat, lon + d) == 90.0
  {
    assert lat + d - lat == d && lon + d - lon == d;
    PyModUnique(360.0, 360.0, 0.0, 1);
    PyModUnique(450.0, 360.0, 90.0, 1);
  }

  // ---------------------------------------------------------------------
  // Structures
  // ---------------------------------------------------------------------

  datatype BoatState = BoatState(
    lat: real,
    lon: real,
    time: int,
    stamina: real,
    heading: real,
    twa: real,
    bsp: real,
    boatClass: string,
    option: string)

  datatype Waypoint = Waypoint(lat: real, lon: real)

  /** The forecast together with the `max_time_minutes` that `run_route`
      attaches to it. */
  datatype Weather = Weather(forecast: Grib.Forecast, maxTime: int)

  /** What `choose_heading` returns: heading, twa, bsp, tws, twd. */
  datatype Choice = Choice(heading: real, twa: real, bsp: real, tws: real, twd: real)

  // ---------------------------------------------------------------------
  // choose_heading
  // ---------------------------------------------------------------------

  /** The number of candidate angles: 30..180 on both tacks. */
  const CandidateCount: nat := 302

  /** The `k`-th angle of the scan: for each angle from 30 up, first the
      negative then the positive one. */
  function CandidateTwa(k: nat): (twa: real)
    requires k < CandidateCount
    ensures 30.0 <= Abs(twa) <= 180.0
    ensures (k % 2 == 0) <==> twa < 0.0
  {
    var angle := 30 + k / 2;
    (if k % 2 == 0 then -angle else angle) as real
  }

  /** Every signed whole angle from 30 to 180 is a candidate, the negative
      one scanned just before the positive one. */
  lemma CandidatesCoverAngles(a: int)
    requires 30 <= a <= 180
    ensures CandidateTwa(2 * (a - 30)) == -a as real
    ensures CandidateTwa(2 * (a - 30) + 1) == a as real
  {
  }

  /** The inputs of one heading choice. */
  datatype Query = Query(m: MathLib, speed: (real, real) -> Option<real>, tws: real, twd: real, bearing: real)

  /** A scored candidate: vmg, twa, heading, bsp. */
  datatype Candidate = Candidate(vmg: real, twa: real, heading: real, bsp: real)

  /** The velocity made good towards `bearing` sailing `heading` at `bsp`. */
  function Vmg(m: MathLib, bsp: real, heading: real, bearing: real): real {
    bsp * m.cosDeg(AngleDiff(heading, bearing))
  }

  /** Candidate `k`, or nothing when the polar has no speed for it. */
  function Evaluate(q: Query, k: nat): (c: Option<Candidate>)
    requires k < CandidateCount
    ensures c.None? <==> q.speed(q.tws, Abs(CandidateTwa(k))).None?
    ensures c.Some? ==>
              && c.value.twa == CandidateTwa(k)
              && c.value.heading == PyMod(q.twd + c.value.twa, 360.0)
              && Some(c.value.bsp) == q.speed(q.tws, Abs(c.value.twa))
              && c.value.vmg == Vmg(q.m, c.value.bsp, c.value.heading, q.bearing)
  {
    var twa := CandidateTwa(k);
    var heading := PyMod(q.twd + twa, 360.0);
    match q.speed(q.tws, Abs(twa))
    case None => None
    case Some(bsp) => Some(Candidate(Vmg(q.m, bsp, heading, q.bearing), twa, heading, bsp))
  }

  /** All candidates of a query, in scan order. */
  function Candidates(q: Query): (cs: seq<Option<Candidate>>)
    ensures |cs| == CandidateCount
    ensures forall k | 0 <= k < CandidateCount :: cs[k] == Evaluate(q, k)
  {
    seq(CandidateCount, k requires 0 <= k < CandidateCount => Evaluate(q, k))
  }

  /** The index of the best of the first `n` scored candidates: the largest
      VMG, the first one on a tie; nothing when none has a speed. */
  function BestCandidate(cs: seq<Option<Candidate>>, n: nat): (b: Option<nat>)
    requires n <= |cs|
    ensures b.None? <==> forall k | 0 <= k < n :: cs[k].None?
    ensures b.Some? ==> b.value < n && cs[b.value].Some?
    ensures b.Some? ==> forall k | 0 <= k < n && cs[k].Some? :: cs[k].value.vmg <= cs[b.value].value.vmg
    ensures b.Some? ==> forall k | 0 <= k < b.value && cs[k].Some? :: cs[k].value.vmg < cs[b.value].value.vmg
  {
    if n == 0 then None
    else
      var prev := BestCandidate(cs, n - 1);
      var c := cs[n - 1];
      if c.None? then prev
      else if prev.None? || c.value.vmg > cs[prev.value].value.vmg then Some(n - 1)
      else prev
  }

  /** The time `choose_heading` asks the forecast about: never past the last
      minute before `max_time_minutes`. */
  function SafeTime(w: Weather, time: int): (t: int)
    ensures t <= time && t < w.maxTime
    ensures time < w.maxTime ==> t == time
  {
    MinInt(time, w.maxTime - 1)
  }

  /** The wind `choose_heading` reads for a state. */
  function WindFor(w: Weather, m: MathLib, state: BoatState): (r: Result<(real, real)>)
    ensures state.time < w.maxTime ==> r == Grib.GetWind(w.forecast, m, state.lat, state.lon, state.time)
    ensures state.time >= w.maxTime ==> r == Grib.GetWind(w.forecast, m, state.lat, state.lon, w.maxTime - 1)
  {
    Grib.GetWind(w.forecast, m, state.lat, state.lon, SafeTime(w, state.time))
  }

  /** Candidate `k` is the one `choose_heading` keeps: it has a speed, no
      candidate has a larger VMG, and every earlier candidate has a smaller
      one (a later tie does not replace it). */
  ghost predicate FirstBest(q: Query, k: nat)
    requires k < CandidateCount
  {
    && Evaluate(q, k).Some?
    && (forall j | 0 <= j < CandidateCount && Evaluate(q, j).Some? :: Evaluate(q, j).value.vmg <= Evaluate(q, k).value.vmg)
    && (forall j | 0 <= j < k && Evaluate(q, j).Some? :: Evaluate(q, j).value.vmg < Evaluate(q, k).value.vmg)
  }

  /** `r` is the choice built from the first-best candidate: its heading,
      angle and speed, with the query's wind. */
  ghost predicate PicksFirstBest(q: Query, r: Choice) {
    exists k | 0 <= k < CandidateCount ::
      && FirstBest(q, k)
      && var c := Evaluate(q, k).value;
         r == Choice(c.heading, c.twa, c.bsp, q.tws, q.twd)
  }

  /** At most one candidate is the first best. */
  lemma FirstBestUnique(q: Query, k1: nat, k2: nat)
    requires k1 < CandidateCount && k2 < CandidateCount
    requires FirstBest(q, k1) && FirstBest(q, k2)
    ensures k1 == k2
  {
  }

  /** What a first-best candidate is, spelled out. */
  lemma FirstBestFacts(q: Query, k: nat)
    requires k < CandidateCount && FirstBest(q, k)
    ensures var c := Evaluate(q, k).value;
            && 30.0 <= Abs(c.twa) <= 180.0
            && 0.0 <= c.heading < 360.0
            && c.heading == PyMod(q.twd + c.twa, 360.0)
            && q.speed(q.tws, Abs(c.twa)) == Some(c.bsp)
            && forall j | 0 <= j < CandidateCount && Evaluate(q, j).Some? ::
                 Evaluate(q, j).value.vmg <= Vmg(q.m, c.bsp, c.heading, q.bearing)
  {
  }

  /** The scan's result over all candidates is the first best one. */
  lemma BestIsFirstBest(q: Query, k: nat)
    requires BestCandidate(Candidates(q), |Candidates(q)|) == Some(k)
    ensures k < CandidateCount && FirstBest(q, k)
  {
    var cs := Candidates(q);
    assert cs[k] == Evaluate(q, k);
    forall j | 0 <= j < CandidateCount && Evaluate(q, j).Some?
      ensures Evaluate(q, j).value.vmg <= Evaluate(q, k).value.vmg
    {
      assert cs[j] == Evaluate(q, j);
    }
    forall j | 0 <= j < k && Evaluate(q, j).Some?
      ensures Evaluate(q, j).value.vmg < Evaluate(q, k).value.vmg
    {
      assert cs[j] == Evaluate(q, j);
    }
  }

  /** `choose_heading(state, wp, grib, polar)`. */
  function ChooseHeading(w: Weather, m: MathLib, speed: (real, real) -> Option<real>, state: BoatState, wp: Waypoint)
    : (r: Result<Choice>)
    ensures r.Success? <==> WindFor(w, m, state).Success?
    ensures r.Failure? ==> r.error == WindFor(w, m, state).error
    ensures r.Success? ==>
              var wind := WindFor(w, m, state).value;
              var bearing := BearingTo(m, state.lat, state.lon, wp.lat, wp.lon);
              var q := Query(m, speed, wind.0, wind.1, bearing);
              && ((forall k | 0 <= k < CandidateCount :: Evaluate(q, k).None?) ==>
                    r.value == Choice(bearing, 0.0, 0.0, wind.0, wind.1))
              && ((exists k | 0 <= k < CandidateCount :: Evaluate(q, k).Some?) ==> PicksFirstBest(q, r.value))
  {
    var wind :- WindFor(w, m, state);
    var bearing := BearingTo(m, state.lat, state.lon, wp.lat, wp.lon);
    var q := Query(m, speed, wind.0, wind.1, bearing);
    var cs := Candidates(q);
    match BestCandidate(cs, |cs|)
    case None => Success(Choice(bearing, 0.0, 0.0, wind.0, wind.1))
    case Some(k) =>
      BestIsFirstBest(q, k);
      var c := cs[k].value;
      Success(Choice(c.heading, c.twa, c.bsp, wind.0, wind.1))
  }

  /** The chosen heading is a compass direction: the bearing when it falls
      back, otherwise a heading reduced modulo 360. */
  lemma ChosenHeadingInRange(w: Weather, m: MathLib, speed: (real, real) -> Option<real>, state: BoatState, wp: Waypoint)
    requires ChooseHeading(w, m, speed, state, wp).Success?
    ensures 0.0 <= ChooseHeading(w, m, speed, state, wp).value.heading < 360.0
  {
    var wind := WindFor(w, m, state).value;
    var bearing := BearingTo(m, state.lat, state.lon, wp.lat, wp.lon);
    var q := Query(m, speed, wind.0, wind.1, bearing);
    if exists k | 0 <= k < CandidateCount :: Evaluate(q, k).Some? {
      ChosenFacts(q, ChooseHeading(w, m, speed, state, wp).value);
    }
  }

  /** A choice made from the first-best candidate is a candidate: its angle
      is one of the scanned ones, its heading the wind direction turned by
      that angle, its speed the polar's, and its VMG the largest of all
      candidates. */
  lemma ChosenFacts(q: Query, r: Choice)
    requires PicksFirstBest(q, r)
    ensures 30.0 <= Abs(r.twa) <= 180.0
    ensures r.heading == PyMod(q.twd + r.twa, 360.0)
    ensures q.speed(q.tws, Abs(r.twa)) == Some(r.bsp)
    ensures forall j | 0 <= j < CandidateCount && Evaluate(q, j).Some? ::
              Evaluate(q, j).value.vmg <= Vmg(q.m, r.bsp, r.heading, q.bearing)
  {
    var k :| 0 <= k < CandidateCount && FirstBest(q, k)
             && r == Choice(Evaluate(q, k).value.heading, Evaluate(q, k).value.twa, Evaluate(q, k).value.bsp, q.tws, q.twd);
    FirstBestFacts(q, k);
  }

  /** The speed lookup of a polar table: `get_speed`, which always answers on
      a table with both axes. */
  function PolarSpeed(t: Polar.Table): (s: (real, real) -> Option<real>)
    requires Polar.Shaped(t) && |t.twa| > 0 && |t.tws| > 0
    ensures forall tws, twa :: s(tws, twa).Some? && Polar.GetSpeed(t, tws, twa) == Success(s(tws, twa).value)
  {
    (tws, twa) => Some(Polar.GetSpeed(t, tws, twa).value)
  }

  /** With a polar table the fallback never happens: the choice is one of
      the candidates. */
  lemma PolarNeverFallsBack(w: Weather, m: MathLib, t: Polar.Table, state: BoatState, wp: Waypoint)
    requires Polar.Shaped(t) && |t.twa| > 0 && |t.tws| > 0
    requires ChooseHeading(w, m, PolarSpeed(t), state, wp).Success?
    ensures 30.0 <= Abs(ChooseHeading(w, m, PolarSpeed(t), state, wp).value.twa) <= 180.0
  {
    var wind := WindFor(w, m, state).value;
    var bearing := BearingTo(m, state.lat, state.lon, wp.lat, wp.lon);
    var q := Query(m, PolarSpeed(t), wind.0, wind.1, bearing);
    assert Evaluate(q, 0).Some?;
    ChosenFacts(q, ChooseHeading(w, m, PolarSpeed(t), state, wp).value);
  }

  // ---------------------------------------------------------------------
  // advance_boat
  // ---------------------------------------------------------------------

  /** The speed after the manoeuvre check of one tick: a tack or gybe from
      `prevTwa` to `twa` costs the penalty of a crew-less manoeuvre. */
  function TickSpeed(prevTwa: real, twa: real, bsp: real): (s: real)
    ensures Manoeuvre.Detect(prevTwa, twa).None? ==> s == bsp
    ensures Manoeuvre.Detect(prevTwa, twa).Some? ==> s == Round(bsp * 0.5, 2)
  {
    match Manoeuvre.Detect(prevTwa, twa)
    case None => bsp
    case Some(kind) =>
      Manoeuvre.Apply(bsp, kind.Name(), (Tick * 60) as real, None, false).value.outcome.bspAfter
  }

  /** The planar displacement, in degrees, of `minutes` at `bsp` knots on
      `heading`: one degree is sixty nautical miles, on both axes. */
  function Displacement(m: MathLib, bsp: real, heading: real): (d: (real, real))
    ensures bsp == 0.0 ==> d == (0.0, 0.0)
    ensures Sound(m) && heading == 0.0 ==> d == (bsp / 360.0, 0.0)
  {
    var distNm := bsp * (Tick as real / 60.0);
    assert distNm == bsp / 6.0;
    assert bsp == 0.0 ==> distNm * m.cosDeg(heading) == 0.0 && distNm * m.sinDeg(heading) == 0.0;
    (distNm * m.cosDeg(heading) / 60.0, distNm * m.sinDeg(heading) / 60.0)
  }

  /** `advance_boat(state, wp, grib, polar, track)`: nothing happens once the
      forecast has run out; otherwise one ten-minute tick on the chosen
      heading, recorded as one more track point. */
  function AdvanceBoat(
    w: Weather, m: MathLib, speed: (real, real) -> Option<real>,
    state: BoatState, wp: Waypoint, track: seq<(real, real)>)
    : (r: Result<(BoatState, seq<(real, real)>)>)
    ensures state.time >= w.maxTime ==> r == Success((state, track))
    ensures state.time < w.maxTime ==> (r.Success? <==> ChooseHeading(w, m, speed, state, wp).Success?)
    ensures state.time < w.maxTime && r.Success? ==>
              var c := ChooseHeading(w, m, speed, state, wp).value;
              var next := r.value.0;
              var bsp := TickSpeed(state.twa, c.twa, c.bsp);
              var d := Displacement(m, bsp, c.heading);
              && next == state.(lat := state.lat + d.0, lon := state.lon + d.1, time := state.time + Tick,
                                heading := c.heading, twa := c.twa, bsp := bsp)
              && r.value.1 == track + [(next.lat, next.lon)]
  {
    if state.time >= w.maxTime then Success((state, track))
    else
      var c :- ChooseHeading(w, m, speed, state, wp);
      var bsp := TickSpeed(state.twa, c.twa, c.bsp);
      var d := Displacement(m, bsp, c.heading);
      var next := state.(lat := state.lat + d.0, lon := state.lon + d.1, time := state.time + Tick,
                         heading := c.heading, twa := c.twa, bsp := bsp);
      Success((next, track + [(next.lat, next.lon)]))
  }

  /** A tick never moves the boat more than `bsp / 360` degrees along either
      axis. */
  lemma DisplacementBounded(m: MathLib, bsp: real, heading: real)
    requires Sound(m) && bsp >= 0.0
    ensures Abs(Displacement(m, bsp, heading).0) <= bsp / 360.0
    ensures Abs(Displacement(m, bsp, heading).1) <= bsp / 360.0
  {
    TickComponentBound(bsp, m.cosDeg(heading));
    TickComponentBound(bsp, m.sinDeg(heading));
  }

  /** One component of a tick's displacement, for a direction cosine `c`. */
  lemma TickComponentBound(bsp: real, c: real)
    requires bsp >= 0.0 && -1.0 <= c <= 1.0
    ensures Abs(bsp * (Tick as real / 60.0) * c / 60.0) <= bsp / 360.0
  {
    UnitBound(bsp, c);
    assert bsp * (Tick as real / 60.0) * c / 60.0 == bsp * c / 360.0;
  }

  // ---------------------------------------------------------------------
  // run_route
  // ---------------------------------------------------------------------

  /** The minutes per forecast step `run_route` assumes, whatever the data. */
  const AssumedStepMinutes: int := 180

  /** `max_time_minutes` as `run_route` computes it: the number of `step`
      entries, or else of `time` entries, less one, times 180 minutes. A
      dataset with neither makes `None - 1` raise. */
  function Horizon(f: Grib.Forecast): (r: Result<int>)
    ensures f.Size(Grib.Step).Some? ==> r == Success((f.Size(Grib.Step).value - 1) * AssumedStepMinutes)
    ensures f.Size(Grib.Step).None? && f.Size(Grib.Time).Some? ==>
              r == Success((f.Size(Grib.Time).value - 1) * AssumedStepMinutes)
    ensures f.Size(Grib.Step).None? && f.Size(Grib.Time).None? ==> r.Failure? && r.error.TypeError?
  {
    var size := if f.Size(Grib.Step).Some? then f.Size(Grib.Step) else f.Size(Grib.Time);
    match size
    case None => Failure(TypeError("unsupported operand type(s) for -: 'NoneType' and 'int'"))
    case Some(n) => Success((n - 1) * AssumedStepMinutes)
  }

  /** A forecast with two or more `time` entries and no `step` dimension
      gets a horizon of 180 minutes per entry, but the forecast is read at
      60 minutes per entry: some minutes inside the horizon, from hour `n`
      on, make `choose_heading` raise an IndexError. */
  lemma TimeOnlyHorizonOverreaches(w: Weather, m: MathLib, speed: (real, real) -> Option<real>, state: BoatState, wp: Waypoint)
    requires w.forecast.steps.None? && w.forecast.timeSize.Some? && w.forecast.timeSize.value >= 2
    requires Horizon(w.forecast).Success? && w.maxTime == Horizon(w.forecast).value
    ensures 60 * w.forecast.timeSize.value < w.maxTime
    ensures 60 * w.forecast.timeSize.value <= state.time < w.maxTime ==>
              ChooseHeading(w, m, speed, state, wp) == Failure(IndexError)
  {
    if 60 * w.forecast.timeSize.value <= state.time < w.maxTime {
      Grib.TimeOnlyRunsOut(w.forecast, m, state.lat, state.lon, state.time);
    }
  }

  /** The arrival radius, in degrees. */
  const ArrivalRadius: real := 0.05

  /** The squared planar distance from a position to the waypoint, in
      square degrees. */
  function SquaredDistance(p: (real, real), wp: Waypoint): (d: real)
    ensures d >= 0.0
  {
    var dlat := wp.lat - p.0;
    var dlon := wp.lon - p.1;
    SquareNonNegative(dlat);
    SquareNonNegative(dlon);
    dlat * dlat + dlon * dlon
  }

  /** `math.hypot(wp.lat - lat, wp.lon - lon) < 0.05` for a position
      `(lat, lon)`. */
  predicate ArrivedAt(m: MathLib, p: (real, real), wp: Waypoint) {
    m.sqrt(SquaredDistance(p, wp)) < ArrivalRadius
  }

  /** The boat is within the arrival radius of the waypoint. */
  predicate Arrived(m: MathLib, state: BoatState, wp: Waypoint) {
    ArrivedAt(m, (state.lat, state.lon), wp)
  }

  /** Arrival is a squared planar distance below 0.0025. */
  lemma ArrivedIffClose(m: MathLib, state: BoatState, wp: Waypoint)
    requires Sound(m)
    ensures Arrived(m, state, wp) <==> SquaredDistance((state.lat, state.lon), wp) < 0.0025
  {
    assert ArrivalRadius * ArrivalRadius == 0.0025;
    SqrtBelow(m, SquaredDistance((state.lat, state.lon), wp), ArrivalRadius);
  }

  lemma SquareNonNegative(x: real)
    ensures x * x >= 0.0
  {
    if x < 0.0 {
      MulLe(x, 0.0, -x);
    }
  }

  /** `path` continues `track` with one point per tick from `state` to
      `next`, the last point being where the boat ended up. */
  predicate Extends(state: BoatState, track: seq<(real, real)>, next: BoatState, path: seq<(real, real)>) {
    && |path| >= |track| && path[..|track|] == track
    && next.time == state.time + Tick * (|path| - |track|)
    && (|path| == |track| ==> next == state)
    && (|path| > |track| ==> path[|path| - 1] == (next.lat, next.lon))
  }

  /** Two extensions in a row are one extension. */
  lemma ExtendsThrough(
    state: BoatState, track: seq<(real, real)>, mid: BoatState, middle: seq<(real, real)>,
    r: Result<(BoatState, seq<(real, real)>)>)
    ensures Extends(state, track, mid, middle) && r.Success? && Extends(mid, middle, r.value.0, r.value.1) ==>
              Extends(state, track, r.value.0, r.value.1)
  {
    if Extends(state, track, mid, middle) && r.Success? && Extends(mid, middle, r.value.0, r.value.1) {
      var path := r.value.1;
      assert path[..|track|] == middle[..|track|];
    }
  }

  /** The time at which `run_route` stops ticking. */
  function Bound(w: Weather, maxMinutes: int): int {
    MinInt(w.maxTime, maxMinutes)
  }

  /** The `while True` loop of one waypoint: stop when the time bound is
      reached, otherwise tick and stop on arrival. */
  function RunLeg(
    w: Weather, m: MathLib, speed: (real, real) -> Option<real>,
    state: BoatState, wp: Waypoint, track: seq<(real, real)>, maxMinutes: int)
    : (r: Result<(BoatState, seq<(real, real)>)>)
    ensures state.time >= Bound(w, maxMinutes) ==> r == Success((state, track))
    ensures r.Success? ==>
              var (next, path) := r.value;
              && Extends(state, track, next, path)
              && (state.time < Bound(w, maxMinutes) ==> |path| > |track|)
              && (state.time < Bound(w, maxMinutes) ==> next.time < Bound(w, maxMinutes) + Tick)
              && (state.time < Bound(w, maxMinutes) && next.time < Bound(w, maxMinutes) ==> Arrived(m, next, wp))
              && (forall p | |track| <= p < |path| - 1 :: !ArrivedAt(m, path[p], wp))
    ensures state.time < Bound(w, maxMinutes) && AdvanceBoat(w, m, speed, state, wp, track).Failure? ==>
              r == Failure(AdvanceBoat(w, m, speed, state, wp, track).error)
    decreases Bound(w, maxMinutes) - state.time
  {
    if state.time >= Bound(w, maxMinutes) then Success((state, track))
    else
      var ticked :- AdvanceBoat(w, m, speed, state, wp, track);
      var (next, path) := ticked;
      assert Extends(state, track, next, path) by {
        assert path[..|track|] == track;
      }
      if Arrived(m, next, wp) then Success((next, path))
      else
        var rest := RunLeg(w, m, speed, next, wp, path, maxMinutes);
        ExtendsThrough(state, track, next, path, rest);
        LegNotArrivedEarlier(m, wp, track, path, rest);
        rest
  }

  /** A tick that did not arrive, followed by the rest of the leg: no
      point of the leg before its last one is within the arrival radius. */
  lemma LegNotArrivedEarlier(
    m: MathLib, wp: Waypoint, track: seq<(real, real)>, path: seq<(real, real)>,
    rest: Result<(BoatState, seq<(real, real)>)>)
    requires |path| == |track| + 1 && !ArrivedAt(m, path[|track|], wp)
    requires rest.Success? ==> |rest.value.1| >= |path| && rest.value.1[..|path|] == path
    requires rest.Success? ==> forall p | |path| <= p < |rest.value.1| - 1 :: !ArrivedAt(m, rest.value.1[p], wp)
    ensures rest.Success? ==> forall p | |track| <= p < |rest.value.1| - 1 :: !ArrivedAt(m, rest.value.1[p], wp)
  {
    if rest.Success? {
      var full := rest.value.1;
      forall p | |track| <= p < |full| - 1
        ensures !ArrivedAt(m, full[p], wp)
      {
        if p == |track| {
          assert full[p] == full[..|path|][p];
        }
      }
    }
  }

  /** The legs of the route, one waypoint after the other. */
  function RunLegs(
    w: Weather, m: MathLib, speed: (real, real) -> Option<real>,
    state: BoatState, waypoints: seq<Waypoint>, track: seq<(real, real)>, maxMinutes: int)
    : (r: Result<(BoatState, seq<(real, real)>)>)
    ensures state.time >= Bound(w, maxMinutes) ==> r == Success((state, track))
    ensures r.Success? ==>
              var (next, path) := r.value;
              && Extends(state, track, next, path)
              && (state.time < Bound(w, maxMinutes) ==> next.time < Bound(w, maxMinutes) + Tick)
              && (|waypoints| > 0 && next.time < Bound(w, maxMinutes) ==> Arrived(m, next, waypoints[|waypoints| - 1]))
    decreases |waypoints|
  {
    if |waypoints| == 0 then Success((state, track))
    else
      var leg :- RunLeg(w, m, speed, state, waypoints[0], track, maxMinutes);
      var rest := RunLegs(w, m, speed, leg.0, waypoints[1..], leg.1, maxMinutes);
      LegsCompose(m, state, track, leg, waypoints, Bound(w, maxMinutes), rest);
      rest
  }

  /** The first leg followed by the remaining legs is the whole route: the
      track extends through both, and the last waypoint reached by the rest
      is the last waypoint of all. */
  lemma LegsCompose(
    m: MathLib, state: BoatState, track: seq<(real, real)>, leg: (BoatState, seq<(real, real)>),
    waypoints: seq<Waypoint>, bound: int, rest: Result<(BoatState, seq<(real, real)>)>)
    requires |waypoints| > 0
    requires Extends(state, track, leg.0, leg.1)
    requires state.time >= bound ==> leg == (state, track)
    requires state.time < bound ==> leg.0.time < bound + Tick
    requires state.time < bound && leg.0.time < bound ==> Arrived(m, leg.0, waypoints[0])
    requires |waypoints| == 1 ==> rest == Success(leg)
    requires leg.0.time >= bound ==> rest == Success(leg)
    requires rest.Success? ==>
               var (next, path) := rest.value;
               && Extends(leg.0, leg.1, next, path)
               && (leg.0.time < bound ==> next.time < bound + Tick)
               && (|waypoints[1..]| > 0 && next.time < bound ==> Arrived(m, next, waypoints[1..][|waypoints[1..]| - 1]))
    ensures rest.Success? ==>
              var (next, path) := rest.value;
              && Extends(state, track, next, path)
              && (state.time < bound ==> next.time < bound + Tick)
              && (next.time < bound ==> Arrived(m, next, waypoints[|waypoints| - 1]))
  {
    ExtendsThrough(state, track, leg.0, leg.1, rest);
    if |waypoints| > 1 {
      assert waypoints[1..][|waypoints[1..]| - 1] == waypoints[|waypoints| - 1];
    }
  }

  /** The default time budget: one week. */
  const WeekMinutes: int := 10080

  /** `run_route(state, waypoints, grib, polar, max_minutes)`: the final
      state and the track, which starts at the start position and holds one
      more point per tick. */
  function RunRoute(
    f: Grib.Forecast, m: MathLib, speed: (real, real) -> Option<real>,
    state: BoatState, waypoints: seq<Waypoint>, maxMinutes: int := WeekMinutes)
    : (r: Result<(BoatState, seq<(real, real)>)>)
    ensures r.Success? ==>
              var (next, track) := r.value;
              && |track| >= 1
              && track[0] == (state.lat, state.lon)
              && next.time == state.time + Tick * (|track| - 1)
              && track[|track| - 1] == (next.lat, next.lon)
    ensures Horizon(f).Failure? ==> r == Failure(Horizon(f).error)
    ensures Horizon(f).Success? && state.time >= MinInt(Horizon(f).value, maxMinutes) ==>
              r == Success((state, [(state.lat, state.lon)]))
    ensures r.Success? ==>
              var bound := MinInt(Horizon(f).value, maxMinutes);
              && (state.time >= bound ==> r.value == (state, [(state.lat, state.lon)]))
              && (state.time < bound ==> r.value.0.time < bound + Tick)
              && (|waypoints| > 0 && r.value.0.time < bound ==> Arrived(m, r.value.0, waypoints[|waypoints| - 1]))
  {
    var horizon :- Horizon(f);
    var w := Weather(f, horizon);
    var legs := RunLegs(w, m, speed, state, waypoints, [(state.lat, state.lon)], maxMinutes);
    assert legs.Success? ==> legs.value.1[0] == legs.value.1[..1][0];
    legs
  }
}

=== FILE: grib.dfy ===
/** Wind from a GRIB forecast (meteo/grib.py).

  The opened xarray dataset is a `Forecast`: the sizes of its `time` and
  `step` dimensions (the step dimension with its coordinate, in whole
  minutes), and two lookups standing for xarray's selection machinery: the
  nearest grid point of one time or step slice, and bilinear interpolation
  in a step slice, which yields nothing when xarray raises or returns NaN.
 */
module Grib {
  import opened Wrappers
  import opened Numerics

  /** Metres per second to knots. */
  const Knots: real := 1.94384

  // ---------------------------------------------------------------------
  // u/v to speed and direction
  // ---------------------------------------------------------------------

  /** The direction the wind blows from, in [0, 360): `(270 - atan2(v, u)) % 360`. */
  function WindDirection(m: MathLib, u: real, v: real): (d: real)
    ensures 0.0 <= d < 360.0
  {
    PyMod(270.0 - m.atan2Deg(v, u), 360.0)
  }

  /** The length of the wind vector, in the unit of `u` and `v`. */
  function Magnitude(m: MathLib, u: real, v: real): (s: real)
    ensures Sound(m) ==> s >= 0.0
  {
    m.sqrt(u * u + v * v)
  }

  /** `uv_to_tws_twd(u, v)`: wind speed in knots and wind direction. */
  function UvToTwsTwd(m: MathLib, u: real, v: real): (w: (real, real))
    ensures Sound(m) ==> w.0 >= 0.0
    ensures 0.0 <= w.1 < 360.0
  {
    (Magnitude(m, u, v) * Knots, WindDirection(m, u, v))
  }

  /** No wind has no speed. */
  lemma CalmHasNoSpeed(m: MathLib)
    requires Sound(m)
    ensures UvToTwsTwd(m, 0.0, 0.0).0 == 0.0
  {
  }

  /** Reversing the wind keeps its speed. */
  lemma ReversedWindSameSpeed(m: MathLib, u: real, v: real)
    ensures UvToTwsTwd(m, -u, -v).0 == UvToTwsTwd(m, u, v).0
  {
    assert (-u) * (-u) == u * u && (-v) * (-v) == v * v;
  }

  /** A wind blowing towards the east (positive `u`) comes from the west, 270
      degrees; one blowing towards the north comes from the south, 180. */
  lemma CompassConvention(m: MathLib, s: real)
    requires Sound(m) && s > 0.0
    ensures UvToTwsTwd(m, s, 0.0).1 == 270.0
    ensures UvToTwsTwd(m, 0.0, s).1 == 180.0
  {
    PyModOfRange(270.0, 360.0);
    PyModOfRange(180.0, 360.0);
  }

  // ---------------------------------------------------------------------
  // The dataset
  // ---------------------------------------------------------------------

  datatype Dim = Time | Step

  datatype Forecast = Forecast(
    timeSize: Option<nat>,
    steps: Option<seq<int>>,
    nearest: (Dim, nat, real, real) -> (real, real),
    linear: (nat, real, real) -> Option<(real, real)>)
  {
    /** `ds.dims.get(d)`. */
    function Size(d: Dim): Option<nat> {
      match d
      case Time => timeSize
      case Step => if steps.Some? then Some(|steps.value|) else None
    }
  }

  /** Python indexing of a dimension of length `size` (`isel`): negative
      indices count from the end; anything else out of range raises. */
  function Isel(i: int, size: nat): (r: Result<nat>)
    ensures r.Success? <==> -(size as int) <= i < size
    ensures r.Success? ==> r.value < size && r.value as int == (if i >= 0 then i else size + i)
    ensures r.Failure? ==> r.error == IndexError
  {
    if 0 <= i < size then Success(i)
    else if -(size as int) <= i < 0 then Success(size + i)
    else Failure(IndexError)
  }

  // ---------------------------------------------------------------------
  // GribFile.get_wind
  // ---------------------------------------------------------------------

  /** The forecast's step length in minutes: the gap between the first two
      step values, or 60 when there is no step dimension or fewer than two
      steps (reading the second raises and the source falls back). */
  function StepSpacing(steps: Option<seq<int>>): (sm: int)
    ensures steps.None? || |steps.value| < 2 ==> sm == 60
    ensures steps.Some? && |steps.value| >= 2 ==> steps.value[0] + sm == steps.value[1]
  {
    if steps.Some? && |steps.value| >= 2 then steps.value[1] - steps.value[0] else 60
  }

  /** The slice `get_wind` reads: `min(t // sm, max_steps - 1)`, where
      `max_steps` is the step count, or no bound without a step dimension. */
  function StepIndex(t: int, sm: int, stepCount: Option<nat>): (i: int)
    requires sm != 0
    ensures i <= FloorDiv(t, sm)
    ensures stepCount.None? ==> i == FloorDiv(t, sm)
    ensures stepCount.Some? ==> i == MinInt(FloorDiv(t, sm), stepCount.value - 1)
  {
    var i := FloorDiv(t, sm);
    match stepCount
    case None => i
    case Some(n) => MinInt(i, n - 1)
  }

  /** From the start of the last step on, every time reads the last step. */
  lemma StepIndexBeyondHorizon(t: int, sm: int, n: nat)
    requires sm > 0 && n >= 1
    requires t >= (n - 1) * sm
    ensures StepIndex(t, sm, Some(n)) == n - 1
  {
    var q := FloorDiv(t, sm);
    MulMonotone(n - 1, q + 1, sm);
  }

  /** A non-negative time reads one of the steps. */
  lemma StepIndexInRange(t: int, sm: int, n: nat)
    requires sm > 0 && n >= 1 && t >= 0
    ensures 0 <= StepIndex(t, sm, Some(n)) <= n - 1
  {
    var q := FloorDiv(t, sm);
    MulMonotone(q + 1, 0, sm);
  }

  /** There is no lower clamp: a negative time gives a negative index. */
  lemma StepIndexNegative(t: int, sm: int, stepCount: Option<nat>)
    requires sm > 0 && t < 0
    ensures StepIndex(t, sm, stepCount) < 0
  {
    var q := FloorDiv(t, sm);
    MulMonotone(0, q, sm);
  }

  /** For a positive factor, a product below another has the smaller
      multiplicand (contrapositive form: `b < a` gives `b * m < a * m`). */
  lemma MulMonotone(a: int, b: int, m: int)
    requires m > 0
    ensures a * m < b * m ==> a < b
    ensures a < b ==> a * m < b * m
  {
    if a < b {
      MulStrict(a, b, m);
    } else if b < a {
      MulStrict(b, a, m);
    }
  }

  lemma MulStrict(a: int, b: int, m: int)
    requires m > 0 && a < b
    ensures a * m < b * m
  {
    assert b * m - a * m == (b - a) * m;
  }

  /** The error `get_wind` raises for a dataset with neither dimension. */
  const UnknownGrib: string := "GRIB inconnu : ni 'time' ni 'step' trouvés."

  /** The u/v pair `get_wind` reads at time `t` (minutes since the start):
      from the `time` dimension if there is one, else from `step`. */
  function ReadUv(f: Forecast, lat: real, lon: real, t: int): (r: Result<(real, real)>)
    ensures StepSpacing(f.steps) == 0 <==> r == Failure(ZeroDivision)
    ensures StepSpacing(f.steps) != 0 && f.timeSize.None? && f.steps.None? ==> r == Failure(ValueError(UnknownGrib))
    ensures StepSpacing(f.steps) != 0 && (f.timeSize.Some? || f.steps.Some?) ==>
              var i := StepIndex(t, StepSpacing(f.steps), f.Size(Step));
              var d := if f.timeSize.Some? then Time else Step;
              && f.Size(d).Some?
              && (r.Success? <==> Isel(i, f.Size(d).value).Success?)
              && (r.Failure? ==> r.error == IndexError)
    ensures r.Success? ==>
              var i := StepIndex(t, StepSpacing(f.steps), f.Size(Step));
              var d := if f.timeSize.Some? then Time else Step;
              && f.Size(d).Some?
              && Isel(i, f.Size(d).value).Success?
              && r.value == f.nearest(d, Isel(i, f.Size(d).value).value, lat, lon)
  {
    var sm := StepSpacing(f.steps);
    if sm == 0 then Failure(ZeroDivision)
    else
      var i := StepIndex(t, sm, f.Size(Step));
      if f.timeSize.Some? then
        var k :- Isel(i, f.timeSize.value);
        Success(f.nearest(Time, k, lat, lon))
      else if f.steps.Some? then
        var k :- Isel(i, |f.steps.value|);
        Success(f.nearest(Step, k, lat, lon))
      else Failure(ValueError(UnknownGrib))
  }

  /** `GribFile.get_wind(lat, lon, time_minutes)`: the nearest grid point's
      wind, speed in m/s (no knot conversion) and direction in [0, 360). */
  function GetWind(f: Forecast, m: MathLib, lat: real, lon: real, t: int): (r: Result<(real, real)>)
    ensures r.Success? <==> ReadUv(f, lat, lon, t).Success?
    ensures r.Failure? ==> r.error == ReadUv(f, lat, lon, t).error
    ensures r.Success? ==> r.value == UvSpeedDirection(m, ReadUv(f, lat, lon, t).value)
    ensures r.Success? && Sound(m) ==> r.value.0 >= 0.0
    ensures r.Success? ==> 0.0 <= r.value.1 < 360.0
  {
    var uv :- ReadUv(f, lat, lon, t);
    Success(UvSpeedDirection(m, uv))
  }

  /** `get_wind` agrees with `uv_to_tws_twd` on the direction, but its speed
      is in m/s where the converter's is in knots. */
  lemma GetWindIsUnconverted(f: Forecast, m: MathLib, lat: real, lon: real, t: int)
    requires GetWind(f, m, lat, lon, t).Success?
    ensures var uv := ReadUv(f, lat, lon, t).value;
            && GetWind(f, m, lat, lon, t).value.1 == UvToTwsTwd(m, uv.0, uv.1).1
            && GetWind(f, m, lat, lon, t).value.0 * Knots == UvToTwsTwd(m, uv.0, uv.1).0
  {
    var uv := ReadUv(f, lat, lon, t).value;
    SpeedIsUnconverted(m, uv.0, uv.1);
  }

  /** The pair `get_wind` derives from u and v is `uv_to_tws_twd`'s without
      the conversion to knots. */
  lemma SpeedIsUnconverted(m: MathLib, u: real, v: real)
    ensures UvSpeedDirection(m, (u, v)).1 == UvToTwsTwd(m, u, v).1
    ensures UvSpeedDirection(m, (u, v)).0 * Knots == UvToTwsTwd(m, u, v).0
  {
  }

  /** With a step dimension of `n` evenly read steps and no time dimension,
      every time from the start of the last step on gets the last step's wind. */
  lemma GetWindBeyondHorizon(f: Forecast, m: MathLib, lat: real, lon: real, t: int)
    requires f.timeSize.None? && f.steps.Some? && |f.steps.value| >= 1
    requires StepSpacing(f.steps) > 0
    requires t >= (|f.steps.value| - 1) * StepSpacing(f.steps)
    ensures GetWind(f, m, lat, lon, t) == Success(UvSpeedDirection(m, f.nearest(Step, |f.steps.value| - 1, lat, lon)))
  {
    var n := |f.steps.value|;
    StepIndexBeyondHorizon(t, StepSpacing(f.steps), n);
    assert Isel(n - 1, n) == Success(n - 1);
    assert ReadUv(f, lat, lon, t) == Success(f.nearest(Step, n - 1, lat, lon));
  }

  /** With a time dimension and no step dimension, the step length falls back
      to 60 minutes and nothing clamps the index, so every time from hour
      `n` on (for `n` time entries) reads past the end and raises. */
  lemma TimeOnlyRunsOut(f: Forecast, m: MathLib, lat: real, lon: real, t: int)
    requires f.timeSize.Some? && f.steps.None?
    requires t >= 60 * f.timeSize.value
    ensures GetWind(f, m, lat, lon, t) == Failure(IndexError)
  {
    var n := f.timeSize.value;
    var q := FloorDiv(t, 60);
    MulMonotone(n, q + 1, 60);
    assert Isel(q, n).Failure?;
  }

  /** The (m/s speed, direction) pair `get_wind` derives from a u/v pair. */
  function UvSpeedDirection(m: MathLib, uv: (real, real)): (w: (real, real))
    ensures Sound(m) ==> w.0 >= 0.0
    ensures 0.0 <= w.1 < 360.0
  {
    (Magnitude(m, uv.0, uv.1), WindDirection(m, uv.0, uv.1))
  }

  // ---------------------------------------------------------------------
  // wind_at_position
  // ---------------------------------------------------------------------

  /** GFS grids run from 0 to 360 degrees east: a negative longitude is
      shifted by a full turn. */
  function GfsLongitude(lon: real): (g: real)
    ensures lon < 0.0 ==> g == lon + 360.0
    ensures lon >= 0.0 ==> g == lon
    ensures -360.0 <= lon < 360.0 ==> 0.0 <= g < 360.0
  {
    if lon < 0.0 then lon + 360.0 else lon
  }

  /** The wind at one point, as `wind_at_position` returns it. */
  datatype Report = Report(u: real, v: real, tws: real, twd: real)

  /** `wind_at_position(ds, lat, lon, step_index)`: bilinear interpolation in
      the step slice, falling back to the nearest grid point when it fails,
      then converted and rounded (u and v to 3 decimals, speed in knots to 2,
      direction to 1). */
  function WindAtPosition(f: Forecast, m: MathLib, lat: real, lon: real, stepIndex: int := 0): (r: Result<Report>)
    ensures f.steps.None? <==> r == Failure(ValueError("step"))
    ensures f.steps.Some? ==> (r.Success? <==> Isel(stepIndex, |f.steps.value|).Success?)
    ensures r.Success? ==>
              var k := Isel(stepIndex, |f.steps.value|).value;
              var g := GfsLongitude(lon);
              var uv := match f.linear(k, lat, g) case Some(p) => p case None => f.nearest(Step, k, lat, g);
              && r.value.u == Round(uv.0, 3)
              && r.value.v == Round(uv.1, 3)
              && r.value.tws == Round(UvToTwsTwd(m, uv.0, uv.1).0, 2)
              && r.value.twd == Round(UvToTwsTwd(m, uv.0, uv.1).1, 1)
    ensures r.Success? ==> r.value.twd >= 0.0
    ensures r.Success? && Sound(m) ==> r.value.tws >= 0.0
  {
    var g := GfsLongitude(lon);
    if f.steps.None? then Failure(ValueError("step"))
    else
      var k :- Isel(stepIndex, |f.steps.value|);
      var uv := match f.linear(k, lat, g)
                case Some(p) => p
                case None => f.nearest(Step, k, lat, g);
      var w := UvToTwsTwd(m, uv.0, uv.1);
      Success(Report(Round(uv.0, 3), Round(uv.1, 3), Round(w.0, 2), Round(w.1, 1)))
  }

  /** A longitude and the same longitude one turn west read the same wind. */
  lemma WindAtPositionWraps(f: Forecast, m: MathLib, lat: real, lon: real, stepIndex: int)
    requires 0.0 <= lon < 360.0
    ensures WindAtPosition(f, m, lat, lon - 360.0, stepIndex) == WindAtPosition(f, m, lat, lon, stepIndex)
  {
  }

  // ---------------------------------------------------------------------
  // Interpolation in time
  // ---------------------------------------------------------------------

  /** `interpolate_uv(u0, v0, u1, v1, alpha)`: the point at `alpha` along the
      segment from (u0, v0) to (u1, v1). */
  function InterpolateUv(u0: real, v0: real, u1: real, v1: real, alpha: real): (w: (real, real))
    ensures alpha == 0.0 ==> w == (u0, v0)
    ensures alpha == 1.0 ==> w == (u1, v1)
    ensures u0 == u1 && v0 == v1 ==> w == (u0, v0)
    ensures 0.0 <= alpha <= 1.0 ==> Min(u0, u1) <= w.0 <= Max(u0, u1) && Min(v0, v1) <= w.1 <= Max(v0, v1)
  {
    (Lerp(u0, u1, alpha), Lerp(v0, v1, alpha))
  }

  /** `interpolate_uv_time` is the same function as `interpolate_uv`. */
  function InterpolateUvTime(u0: real, v0: real, u1: real, v1: real, alpha: real): (w: (real, real))
    ensures w == InterpolateUv(u0, v0, u1, v1, alpha)
  {
    (u0 + alpha * (u1 - u0), v0 + alpha * (v1 - v0))
  }

  // ---------------------------------------------------------------------
  // wind_along_route
  // ---------------------------------------------------------------------

  /** The step slice `wind_along_route` reads for route point `i`: it starts
      at `stepStart` and moves on by one after every point `j` with
      `(j + 1) * stepMinutes >= 60`. */
  function StepAt(stepStart: int, stepMinutes: int, i: nat): int {
    if i == 0 then stepStart
    else StepAt(stepStart, stepMinutes, i - 1) + (if i * stepMinutes >= 60 then 1 else 0)
  }

  /** The number of points covering the first hour, `ceil(60 / stepMinutes)`. */
  function FirstHourPoints(stepMinutes: int): (k: int)
    requires stepMinutes > 0
    ensures k >= 1
    ensures k * stepMinutes >= 60 && (k - 1) * stepMinutes < 60
  {
    var k := (60 + stepMinutes - 1) / stepMinutes;
    assert k * stepMinutes <= 60 + stepMinutes - 1 < (k + 1) * stepMinutes;
    k
  }

  /** The step stays at `stepStart` for the first `ceil(60 / stepMinutes)`
      points and then moves on by one per point. */
  lemma {:induction false} StepAtClosedForm(stepStart: int, stepMinutes: int, i: nat)
    requires stepMinutes > 0
    ensures StepAt(stepStart, stepMinutes, i) == stepStart + MaxInt(0, i - FirstHourPoints(stepMinutes) + 1)
  {
    if i > 0 {
      StepAtClosedForm(stepStart, stepMinutes, i - 1);
      var k := FirstHourPoints(stepMinutes);
      if i >= k {
        MulLeInt(k, i, stepMinutes);
      } else {
        MulLeInt(i, k - 1, stepMinutes);
      }
    }
  }

  /** A non-positive step length never moves on. */
  lemma {:induction false} StepAtNonPositive(stepStart: int, stepMinutes: int, i: nat)
    requires stepMinutes <= 0
    ensures StepAt(stepStart, stepMinutes, i) == stepStart
  {
    if i > 0 {
      StepAtNonPositive(stepStart, stepMinutes, i - 1);
      MulLeInt(0, i, -stepMinutes);
    }
  }

  function MaxInt(a: int, b: int): int {
    if a >= b then a else b
  }

  /** One entry of the result of `wind_along_route`. */
  datatype RoutePoint = RoutePoint(index: nat, lat: real, lon: real, wind: Report)

  /** The wind of route point `i`. */
  function WindOfPoint(f: Forecast, m: MathLib, route: seq<(real, real)>, stepStart: int, stepMinutes: int, i: nat): Result<Report>
    requires i < |route|
  {
    WindAtPosition(f, m, route[i].0, route[i].1, StepAt(stepStart, stepMinutes, i))
  }

  /** `wind_along_route(ds, route, step_start, step_minutes)`: one entry per
      route point, in order; the first point whose wind cannot be read
      interrupts the walk with its exception. */
  method WindAlongRoute(f: Forecast, m: MathLib, route: seq<(real, real)>, stepStart: int := 0, stepMinutes: int := 10)
    returns (r: Result<seq<RoutePoint>>)
    ensures r.Success? <==> forall i | 0 <= i < |route| :: WindOfPoint(f, m, route, stepStart, stepMinutes, i).Success?
    ensures r.Success? ==>
              && |r.value| == |route|
              && forall i | 0 <= i < |route| ::
                   r.value[i] == RoutePoint(i, route[i].0, route[i].1, WindOfPoint(f, m, route, stepStart, stepMinutes, i).value)
    ensures r.Failure? ==>
              exists i | 0 <= i < |route| ::
                && WindOfPoint(f, m, route, stepStart, stepMinutes, i).Failure?
                && r.error == WindOfPoint(f, m, route, stepStart, stepMinutes, i).error
  {
    var results: seq<RoutePoint> := [];
    var stepIndex := stepStart;
    var i := 0;
    while i < |route|
      invariant 0 <= i <= |route|
      invariant stepIndex == StepAt(stepStart, stepMinutes, i)
      invariant |results| == i
      invariant forall j | 0 <= j < i :: WindOfPoint(f, m, route, stepStart, stepMinutes, j).Success?
      invariant forall j | 0 <= j < i ::
                  results[j] == RoutePoint(j, route[j].0, route[j].1, WindOfPoint(f, m, route, stepStart, stepMinutes, j).value)
    {
      var lat, lon := route[i].0, route[i].1;
      var wind := WindAtPosition(f, m, lat, lon, stepIndex);
      assert wind == WindOfPoint(f, m, route, stepStart, stepMinutes, i);
      if wind.Failure? {
        return Failure(wind.error);
      }
      results := results + [RoutePoint(i, lat, lon, wind.value)];
      assert StepAt(stepStart, stepMinutes, i + 1) == stepIndex + (if (i + 1) * stepMinutes >= 60 then 1 else 0);
      if (i + 1) * stepMinutes >= 60 {
        stepIndex := stepIndex + 1;
      }
      i := i + 1;
    }
    return Success(results);
  }
}

=== FILE: loader.dfy ===
/** The polar path builder (polaire/loader.py).

  `get_polar_path` builds the same kind of path as the `Polar` constructor
  but normalises the option differently: it only recognises a missing option
  and the literal "nu", and prefixes everything else with "nu+". The lemmas
  at the end show where the two builders agree and where they do not.
 */
module Loader {
  import opened Wrappers
  import Paths
  import Polar

  const BasePolarDir: string := "data/polaires"

  /** The file name `get_polar_path` looks for. */
  function LoaderFilename(boatClass: string, option: Option<string>): (f: string)
    ensures option.None? || option.value == "nu" ==> f == boatClass + "-nu.csv"
    ensures option.Some? && option.value != "nu" ==> f == boatClass + "-nu+" + option.value + ".csv"
  {
    if option.None? || option.value == "nu" then boatClass + "-nu.csv"
    else boatClass + "-nu+" + option.value + ".csv"
  }

  /** `get_polar_path(boat_class, option)`: an unknown class (no directory)
      is reported before a missing file; otherwise the path of the file under
      the class directory. */
  function GetPolarPath<T>(disk: Paths.Disk<T>, boatClass: string, option: Option<string>): (r: Result<string>)
    requires disk.Valid()
    ensures !disk.IsDir(Paths.Join(BasePolarDir, boatClass)) ==> r == Failure(FileNotFound(boatClass))
    ensures disk.IsDir(Paths.Join(BasePolarDir, boatClass)) ==>
              var path := Paths.Join(Paths.Join(BasePolarDir, boatClass), LoaderFilename(boatClass, option));
              && (r.Success? <==> disk.IsFile(path))
              && (r.Success? ==> r.value == path)
              && (r.Failure? ==> r == Failure(FileNotFound(path)))
  {
    var classDir := Paths.Join(BasePolarDir, boatClass);
    if !disk.IsDir(classDir) then Failure(FileNotFound(boatClass))
    else
      var filepath := Paths.Join(classDir, LoaderFilename(boatClass, option));
      if !disk.IsFile(filepath) then Failure(FileNotFound(filepath))
      else Success(filepath)
  }

  /** A successful call returns a file that exists, inside a class directory
      that exists. */
  lemma GetPolarPathIsFile<T>(disk: Paths.Disk<T>, boatClass: string, option: Option<string>)
    requires disk.Valid()
    requires GetPolarPath(disk, boatClass, option).Success?
    ensures disk.IsFile(GetPolarPath(disk, boatClass, option).value)
    ensures !disk.IsDir(GetPolarPath(disk, boatClass, option).value)
    ensures disk.IsDir(Paths.Join(BasePolarDir, boatClass))
  {
  }

  /** Both builders start from the same directory. */
  lemma SameBaseDir()
    ensures Polar.BaseDir == BasePolarDir
  {
  }

  /** For no option, "nu", and any non-blank option that does not start with
      "nu", the loader and the `Polar` constructor name the same file. */
  lemma AgreesWithPolar(boatClass: string, option: Option<string>)
    requires option.None? || option.value == "nu" || (!Polar.Blank(option.value) && !Polar.StartsWithNu(option.value))
    ensures LoaderFilename(boatClass, option) == Polar.Filename(boatClass, Polar.NormaliseOption(option))
  {
    if option.None? {
      assert Polar.NormaliseOption(option) == "nu";
      assert boatClass + "-" + "nu" + ".csv" == boatClass + "-nu.csv";
    } else if option.value == "nu" {
      assert !Polar.Blank("nu") by { assert !Polar.IsSpace("nu"[0]); }
      assert Polar.NormaliseOption(option) == "nu";
      assert boatClass + "-" + "nu" + ".csv" == boatClass + "-nu.csv";
    } else {
      var o := option.value;
      assert Polar.NormaliseOption(option) == "nu+" + o;
      PrefixedFilename(boatClass, o);
    }
  }

  /** The converse: for a blank option, and for every option other than "nu"
      that starts with "nu", the two builders name different files. */
  lemma DisagreesWithPolar(boatClass: string, o: string)
    requires o != "nu" && (Polar.Blank(o) || Polar.StartsWithNu(o))
    ensures LoaderFilename(boatClass, Some(o)) != Polar.Filename(boatClass, Polar.NormaliseOption(Some(o)))
  {
    PrefixedFilename(boatClass, o);
    var n := Polar.NormaliseOption(Some(o));
    assert |n| == 2 || |n| == |o|;
    assert |Polar.Filename(boatClass, n)| != |Polar.Filename(boatClass, "nu+" + o)|;
  }

  /** The loader and the `Polar` constructor name the same file exactly for
      no option, "nu", and the non-blank options that do not start with
      "nu". */
  lemma AgreesWithPolarExactly(boatClass: string, option: Option<string>)
    ensures LoaderFilename(boatClass, option) == Polar.Filename(boatClass, Polar.NormaliseOption(option))
            <==> option.None? || option.value == "nu" || (!Polar.Blank(option.value) && !Polar.StartsWithNu(option.value))
  {
    if option.None? || option.value == "nu" || (!Polar.Blank(option.value) && !Polar.StartsWithNu(option.value)) {
      AgreesWithPolar(boatClass, option);
    } else {
      DisagreesWithPolar(boatClass, option.value);
    }
  }

  lemma PrefixedFilename(boatClass: string, o: string)
    ensures Polar.Filename(boatClass, "nu+" + o) == boatClass + "-nu+" + o + ".csv"
  {
    assert boatClass + "-" + ("nu+" + o) == boatClass + "-nu+" + o;
  }

  /** An option that already carries the "nu+" prefix gets it twice from the
      loader, once from the `Polar` constructor. */
  lemma DoublePrefix(boatClass: string)
    ensures LoaderFilename(boatClass, Some("nu+foils")) == boatClass + "-nu+nu+foils.csv"
    ensures Polar.Filename(boatClass, Polar.NormaliseOption(Some("nu+foils"))) == boatClass + "-nu+foils.csv"
  {
    assert Polar.StartsWithNu("nu+foils");
    assert !Polar.Blank("nu+foils") by { assert !Polar.IsSpace("nu+foils"[0]); }
  }

  /** A blank option names the bare hull for the `Polar` constructor but a
      file with an empty option for the loader. */
  lemma BlankOption(boatClass: string)
    ensures LoaderFilename(boatClass, Some("")) == boatClass + "-nu+.csv"
    ensures Polar.Filename(boatClass, Polar.NormaliseOption(Some(""))) == boatClass + "-nu.csv"
  {
  }
}

=== FILE: manoeuvre.dfy ===
/** Manoeuvre detection and penalty (routing/manoeuvre.py).

  The file defines `apply_manoeuvre_with_stamina` twice; the second
  definition (optional stamina model, default arguments) replaces the first
  when the module is imported, so it is the one modelled here.
 */
module Manoeuvre {
  import opened Wrappers
  import opened Numerics
  import Stamina

  datatype Kind = Tack | Gybe {
    /** The name the source returns, which is also the key of the stamina
        cost table. */
    function Name(): string {
      match this
      case Tack => "tack"
      case Gybe => "gybe"
    }
  }

  /** A change of angle larger than this (in degrees) is a manoeuvre. */
  const TurnThreshold: real := 30.0

  /** The signed turn from `prev` to `next`, `((next - prev + 540) % 360) - 180`. */
  function Turn(prev: real, next: real): (d: real)
    ensures -180.0 <= d < 180.0
  {
    PyMod(next - prev + 540.0, 360.0) - 180.0
  }

  /** The turn is congruent to `next - prev` modulo a full circle. */
  lemma TurnCongruent(prev: real, next: real) returns (k: int)
    ensures next - prev == Turn(prev, next) + k as real * 360.0
  {
    var q := PyModQuotient(next - prev + 540.0, 360.0);
    k := q - 1;
  }

  /** The turn is the only angle in [-180, 180) congruent to `next - prev`. */
  lemma TurnUnique(prev: real, next: real, e: real, k: int)
    requires -180.0 <= e < 180.0
    requires next - prev == e + k as real * 360.0
    ensures Turn(prev, next) == e
  {
    PyModUnique(next - prev + 540.0, 360.0, e + 180.0, k + 1);
  }

  predicate UpwindRegime(prev: real) {
    Abs(prev - 45.0) < 60.0
  }

  predicate DownwindRegime(prev: real) {
    Abs(prev - 180.0) < 90.0
  }

  /** `detect_manoeuvre(prev_heading, new_heading)`. */
  function Detect(prev: real, next: real): (r: Option<Kind>)
    ensures r == Some(Tack) <==> Abs(Turn(prev, next)) > TurnThreshold && UpwindRegime(prev)
    ensures r == Some(Gybe) <==>
              Abs(Turn(prev, next)) > TurnThreshold && !UpwindRegime(prev) && DownwindRegime(prev)
    ensures Abs(Turn(prev, next)) <= TurnThreshold ==> r.None?
  {
    var diff := Turn(prev, next);
    if Abs(diff) > TurnThreshold && UpwindRegime(prev) then Some(Tack)
    else if Abs(diff) > TurnThreshold && DownwindRegime(prev) then Some(Gybe)
    else None
  }

  /** Keeping the same angle is never a manoeuvre. */
  lemma NoTurnNoManoeuvre(a: real)
    ensures Turn(a, a) == 0.0
    ensures Detect(a, a) == None
  {
    TurnUnique(a, a, 0.0, 0);
  }

  /** Turning by a whole number of circles is no turn at all. */
  lemma FullCirclesNoManoeuvre(a: real, k: int)
    ensures Detect(a, a + k as real * 360.0) == None
  {
    TurnUnique(a, a + k as real * 360.0, 0.0, k);
  }

  /** The tack test runs first, so a previous angle in (90, 105), which lies
      in both regimes, yields a tack. */
  lemma OverlapIsTack(prev: real, next: real)
    requires 90.0 < prev < 105.0
    requires Abs(Turn(prev, next)) > TurnThreshold
    ensures UpwindRegime(prev) && DownwindRegime(prev)
    ensures Detect(prev, next) == Some(Tack)
  {
  }

  /** Worked cases: 45 to 85 is a tack, 180 to 220 a gybe, 90 to 95 nothing. */
  lemma Examples()
    ensures Detect(45.0, 85.0) == Some(Tack)
    ensures Detect(180.0, 220.0) == Some(Gybe)
    ensures Detect(90.0, 95.0) == None
  {
    TurnUnique(45.0, 85.0, 40.0, 0);
    TurnUnique(180.0, 220.0, 40.0, 0);
    TurnUnique(90.0, 95.0, 5.0, 0);
  }

  /** The regimes look only at the signed previous angle, so a previous
      angle of -15 or less lies in neither: no turn from there is a
      manoeuvre. */
  lemma PortSideNeverPenalised(prev: real, next: real)
    requires prev <= -15.0
    ensures !UpwindRegime(prev) && !DownwindRegime(prev)
    ensures Detect(prev, next).None?
  {
  }

  /** The mirror images of a tack are treated differently: 45 to -45 is a
      tack, -45 to 45 is nothing. */
  lemma MirrorTackAsymmetry()
    ensures Detect(45.0, -45.0) == Some(Tack)
    ensures Detect(-45.0, 45.0) == None
  {
    TurnUnique(45.0, -45.0, -90.0, 0);
    PortSideNeverPenalised(-45.0, 45.0);
  }

  /** What `apply_manoeuvre_with_stamina` returns. */
  datatype Outcome = Outcome(
    bspAfter: real,
    penaltyFactor: real,
    durationSec: real,
    staminaLeft: Option<real>)

  /** The outcome, and the crew's stamina model after the call (the source
      mutates the model it is given). */
  datatype Applied = Applied(outcome: Outcome, crew: Option<Stamina.Model>)

  /** The wind strength the source charges every manoeuvre at. */
  const ManoeuvreWind: real := 15.0

  const DefaultDurationSec: real := 300.0

  /** Speed kept through a manoeuvre: half, or 70% with a winch or furler
      upgrade. */
  function BasePenalty(equipmentBonus: bool): (p: real)
    ensures 0.0 < p < 1.0
    ensures equipmentBonus ==> p > BasePenalty(false)
  {
    if equipmentBonus then 0.7 else 0.5
  }

  /** `apply_manoeuvre_with_stamina` (the second, live definition). */
  function Apply(
    bsp: real,
    manoeuvre: string,
    durationSec: real := DefaultDurationSec,
    crew: Option<Stamina.Model> := None,
    equipmentBonus: bool := false): (r: Result<Applied>)
    ensures crew.None? ==>
              && r.Success?
              && r.value.crew.None?
              && r.value.outcome.bspAfter == SpeedAfter(bsp, BasePenalty(equipmentBonus))
              && r.value.outcome.penaltyFactor == Round(BasePenalty(equipmentBonus), 3)
              && r.value.outcome.staminaLeft.None?
    ensures crew.Some? ==>
              var consumed := Stamina.Consume(crew.value, manoeuvre, ManoeuvreWind);
              && (r.Success? <==> consumed.Success?)
              && (consumed.Failure? ==> r == Failure(consumed.error))
              && (r.Success? ==>
                    var factor := CrewFactor(equipmentBonus, consumed.value);
                    && r.value.crew == Some(consumed.value)
                    && r.value.outcome.bspAfter == SpeedAfter(bsp, factor)
                    && r.value.outcome.penaltyFactor == Round(factor, 3)
                    && r.value.outcome.staminaLeft == Some(Round(consumed.value.stamina, 1)))
    ensures r.Success? ==> r.value.outcome.durationSec == durationSec
  {
    var penalty := BasePenalty(equipmentBonus);
    match crew
    case None => Success(Penalised(bsp, penalty, durationSec, None))
    case Some(model) =>
      var consumed := Stamina.Consume(model, manoeuvre, ManoeuvreWind);
      if consumed.Failure? then Failure(consumed.error)
      else
        var tired := consumed.value;
        Success(Penalised(bsp, CrewFactor(equipmentBonus, tired), durationSec, Some(tired)))
  }

  /** The speed factor with a crew: the base penalty scaled by how tired the
      crew is after the manoeuvre. */
  function CrewFactor(equipmentBonus: bool, tired: Stamina.Model): real {
    BasePenalty(equipmentBonus) * Stamina.SpeedFactor(tired)
  }

  /** The returned record for a final speed factor: speed rounded to two
      decimals, factor to three, stamina left to one. */
  function Penalised(bsp: real, factor: real, durationSec: real, crew: Option<Stamina.Model>): (a: Applied)
    ensures a.outcome.bspAfter == SpeedAfter(bsp, factor)
    ensures a.outcome.penaltyFactor == Round(factor, 3)
    ensures a.outcome.durationSec == durationSec
    ensures a.crew == crew
    ensures a.outcome.staminaLeft == if crew.None? then None else Some(Round(crew.value.stamina, 1))
  {
    var left := match crew
                case None => None
                case Some(tired) => Some(Round(tired.stamina, 1));
    Applied(Outcome(SpeedAfter(bsp, factor), Round(factor, 3), durationSec, left), crew)
  }

  /** The boat speed after a manoeuvre scaled by `factor`, to two decimals. */
  function SpeedAfter(bsp: real, factor: real): real {
    Round(bsp * factor, 2)
  }

  /** Without a stamina model no manoeuvre name can fail, known or not. */
  lemma WithoutCrewNeverFails(bsp: real, manoeuvre: string, durationSec: real, equipmentBonus: bool)
    ensures Apply(bsp, manoeuvre, durationSec, None, equipmentBonus).Success?
  {
  }

  /** The duration is only echoed back: it changes nothing else. */
  lemma DurationIsInert(
    bsp: real, manoeuvre: string, d1: real, d2: real,
    crew: Option<Stamina.Model>, equipmentBonus: bool)
    ensures Apply(bsp, manoeuvre, d1, crew, equipmentBonus).Success?
            == Apply(bsp, manoeuvre, d2, crew, equipmentBonus).Success?
    ensures Apply(bsp, manoeuvre, d1, crew, equipmentBonus).Success? ==>
              var a1 := Apply(bsp, manoeuvre, d1, crew, equipmentBonus).value;
              var a2 := Apply(bsp, manoeuvre, d2, crew, equipmentBonus).value;
              && a1.outcome.bspAfter == a2.outcome.bspAfter
              && a1.outcome.penaltyFactor == a2.outcome.penaltyFactor
              && a1.outcome.staminaLeft == a2.outcome.staminaLeft
              && a1.crew == a2.crew
  {
  }

  /** Without a stamina model a manoeuvre keeps the penalty's share of the
      speed, up to the rounding to two decimals. */
  lemma KeepsPenaltyShare(bsp: real, manoeuvre: string, durationSec: real, equipmentBonus: bool)
    ensures var after := Apply(bsp, manoeuvre, durationSec, None, equipmentBonus).value.outcome.bspAfter;
            && bsp * BasePenalty(equipmentBonus) - 0.005 <= after
            && after <= bsp * BasePenalty(equipmentBonus) + 0.005
  {
    var x := bsp * BasePenalty(equipmentBonus);
    assert Apply(bsp, manoeuvre, durationSec, None, equipmentBonus).value.outcome.bspAfter == Round(x, 2);
    RoundIsClose(x, 2);
    assert 0.5 / Pow10(2) == 0.005 by {
      assert Pow10(2) == 100.0;
    }
  }

  /** A stalled boat stays stalled through a manoeuvre. */
  lemma StalledStaysStalled(manoeuvre: string, durationSec: real, equipmentBonus: bool)
    ensures Apply(0.0, manoeuvre, durationSec, None, equipmentBonus).value.outcome.bspAfter == 0.0
  {
  }
}

=== FILE: numerics.dfy ===
/** Python's numeric primitives over exact reals.

  The router computes in IEEE doubles; the model computes in Dafny's exact
  `real`, so every property below is about the algebra of the code, not about
  float rounding. The operators whose Python meaning differs from Dafny's
  (`%` and `//` floor, `int()` truncates, `round` rounds half to even) are
  written out here once. Trigonometry and square roots cannot be computed
  exactly: they are fields of a `MathLib` value, constrained only by the
  range facts collected in `Sound`.
 */
module Numerics {

  function Abs(x: real): real {
    if x < 0.0 then -x else x
  }

  function Min(a: real, b: real): real {
    if a <= b then a else b
  }

  function Max(a: real, b: real): real {
    if a >= b then a else b
  }

  function MinInt(a: int, b: int): int {
    if a <= b then a else b
  }

  /** Python's float `x % m` for a positive modulus: the remainder takes the
      sign of the divisor, so it always lies in [0, m). */
  function PyMod(x: real, m: real): (r: real)
    requires m > 0.0
    ensures 0.0 <= r < m
  {
    var y := x / m;
    var f := y - y.Floor as real;
    FractionScale(f, m);
    f * m
  }

  lemma FloorUnique(y: real, k: int)
    requires k as real <= y < k as real + 1.0
    ensures y.Floor == k
  {
  }

  lemma FractionScale(f: real, m: real)
    requires m > 0.0 && 0.0 <= f < 1.0
    ensures 0.0 <= f * m < m
  {
  }

  lemma MulLe(a: real, b: real, m: real)
    requires m > 0.0 && a <= b
    ensures a * m <= b * m
  {
  }

  lemma MulCancel(a: real, b: real, m: real)
    requires m != 0.0 && a * m == b * m
    ensures a == b
  {
  }

  lemma DivMul(x: real, m: real)
    requires m != 0.0
    ensures (x / m) * m == x
  {
  }

  lemma SumScale(a: real, b: real, m: real)
    ensures (a + b) * m == a * m + b * m
  {
  }

  lemma Fraction(d: real, r: real, m: real)
    requires m > 0.0 && 0.0 <= r < m && d * m == r
    ensures 0.0 <= d < 1.0
  {
  }

  /** `PyMod(x, m)` is the one remainder in [0, m) congruent to `x` modulo `m`. */
  lemma PyModUnique(x: real, m: real, r: real, k: int)
    requires m > 0.0
    requires 0.0 <= r < m
    requires x == r + k as real * m
    ensures PyMod(x, m) == r
  {
    var y := x / m;
    var d := r / m;
    DivMul(x, m);
    DivMul(r, m);
    SumScale(d, k as real, m);
    MulCancel(y, d + k as real, m);
    Fraction(d, r, m);
    FloorUnique(y, k);
  }

  /** On [0, m) the remainder is the identity. */
  lemma PyModOfRange(x: real, m: real)
    requires m > 0.0
    requires 0.0 <= x < m
    ensures PyMod(x, m) == x
  {
    PyModUnique(x, m, x, 0);
  }

  /** The remainder differs from `x` by a whole number of moduli. */
  lemma PyModQuotient(x: real, m: real) returns (q: int)
    requires m > 0.0
    ensures x == PyMod(x, m) + q as real * m
  {
    var y := x / m;
    q := y.Floor;
    DivMul(x, m);
    SumScale(y - q as real, q as real, m);
  }

  /** Adding whole turns does not change the remainder. */
  lemma PyModPeriodic(x: real, k: int, m: real)
    requires m > 0.0
    ensures PyMod(x + k as real * m, m) == PyMod(x, m)
  {
    var q := PyModQuotient(x, m);
    SumScale(q as real, k as real, m);
    PyModUnique(x + k as real * m, m, PyMod(x, m), q + k);
  }

  /** Python's integer `a // b`: the quotient rounded towards minus infinity
      (Dafny's own `/` is Euclidean, which differs for a negative divisor). */
  function FloorDiv(a: int, b: int): (q: int)
    requires b != 0
    ensures b > 0 ==> q * b <= a < (q + 1) * b
    ensures b < 0 ==> (q + 1) * b < a <= q * b
  {
    if b > 0 || a % b == 0 then a / b else a / b - 1
  }

  /** Python's `int(x)` on a float: truncation towards zero. */
  function Trunc(x: real): (r: int)
    ensures x >= 0.0 ==> r as real <= x < r as real + 1.0
    ensures x < 0.0 ==> r as real - 1.0 < x <= r as real
  {
    if x >= 0.0 then x.Floor else -((-x).Floor)
  }

  /** numpy's `clip(x, lo, hi)`: `min(max(x, lo), hi)`. */
  function Clip(x: real, lo: real, hi: real): (r: real)
    ensures lo <= hi ==> lo <= r <= hi
    ensures lo <= x <= hi ==> r == x
    ensures x <= lo <= hi ==> r == lo
    ensures lo <= hi <= x ==> r == hi
  {
    Min(Max(x, lo), hi)
  }

  function Pow10(n: nat): (p: real)
    ensures p >= 1.0
  {
    if n == 0 then 1.0 else 10.0 * Pow10(n - 1)
  }

  /** Python's `round(x, n)` on the exact value of `x`: to the nearest multiple
      of 10^-n, ties to the even multiple. */
  function Round(x: real, n: nat): (r: real)
    ensures x >= 0.0 ==> r >= 0.0
    ensures x == 0.0 ==> r == 0.0
  {
    RoundToUnit(x, Pow10(n))
  }

  /** `x` rounded to the nearest multiple of `1 / p`, ties to the even one. */
  function RoundToUnit(x: real, p: real): (r: real)
    requires p >= 1.0
    ensures x >= 0.0 ==> r >= 0.0
    ensures x == 0.0 ==> r == 0.0
  {
    RoundedMultiple(x * p) as real / p
  }

  /** The integer nearest to `y`, ties to the even one. */
  function RoundedMultiple(y: real): (k: int)
    ensures -0.5 <= k as real - y <= 0.5
    ensures y >= 0.0 ==> k >= 0
    ensures y == 0.0 ==> k == 0
  {
    var f := y.Floor;
    var frac := y - f as real;
    if frac < 0.5 then f
    else if frac > 0.5 then f + 1
    else if f % 2 == 0 then f else f + 1
  }

  /** `round(x, n)` is within half a unit of the n-th decimal of `x`. */
  lemma RoundIsClose(x: real, n: nat)
    ensures -0.5 / Pow10(n) <= Round(x, n) - x <= 0.5 / Pow10(n)
  {
    RoundToUnitIsClose(x, Pow10(n));
  }

  lemma RoundToUnitIsClose(x: real, p: real)
    requires p >= 1.0
    ensures -0.5 / p <= RoundToUnit(x, p) - x <= 0.5 / p
  {
    var k := RoundedMultiple(x * p);
    RoundError(x, p, k);
  }

  lemma RoundError(x: real, p: real, k: int)
    requires p >= 1.0
    requires -0.5 <= k as real - x * p <= 0.5
    ensures -0.5 / p <= k as real / p - x <= 0.5 / p
  {
    var e := k as real - x * p;
    assert k as real / p - x == e / p by {
      assert k as real == e + x * p;
      DivSum(e, x * p, p);
      DivMul(x, p);
      assert (x * p) / p == x;
    }
    DivLe(-0.5, e, p);
    DivLe(e, 0.5, p);
    assert (-0.5) / p == -0.5 / p;
  }

  lemma DivLe(a: real, b: real, p: real)
    requires p > 0.0 && a <= b
    ensures a / p <= b / p
  {
    var ip := 1.0 / p;
    assert ip > 0.0;
    MulLe(a, b, ip);
    assert a / p == a * ip;
    assert b / p == b * ip;
  }

  lemma DivSum(a: real, b: real, p: real)
    requires p != 0.0
    ensures (a + b) / p == a / p + b / p
  {
  }

  /** The point at `w` along the segment from `a` (at 0) to `b` (at 1):
      `a + (b - a) * w`. */
  function Lerp(a: real, b: real, w: real): (r: real)
    ensures w == 0.0 ==> r == a
    ensures w == 1.0 ==> r == b
    ensures a == b ==> r == a
    ensures 0.0 <= w <= 1.0 ==> Min(a, b) <= r <= Max(a, b)
  {
    var r := a + (b - a) * w;
    BlendEnds(a, b, w);
    if 0.0 <= w <= 1.0 then BlendBetween(a, b, w); r else r
  }

  /** The segment from `a` to `b` starts at `a`, ends at `b`, and is a single
      point when the two coincide. */
  lemma BlendEnds(a: real, b: real, w: real)
    ensures w == 0.0 ==> a + (b - a) * w == a
    ensures w == 1.0 ==> a + (b - a) * w == b
    ensures a == b ==> a + (b - a) * w == a
  {
  }

  /** A point of the segment from `a` to `b` lies between the two. */
  lemma BlendBetween(a: real, b: real, w: real)
    requires 0.0 <= w <= 1.0
    ensures Min(a, b) <= a + (b - a) * w <= Max(a, b)
  {
    assert (b - a) * w == Scale(b - a, w);
    ScaleBetween(b - a, w);
  }

  /** `d * w`, named so that facts about it survive being passed on. */
  function Scale(d: real, w: real): real {
    d * w
  }

  /** Scaling by a fraction keeps a value between zero and itself. */
  lemma ScaleBetween(d: real, w: real)
    requires 0.0 <= w <= 1.0
    ensures 0.0 <= d ==> 0.0 <= Scale(d, w) <= d
    ensures d < 0.0 ==> d <= Scale(d, w) <= 0.0
  {
    if 0.0 < d && 0.0 < w {
      MulLe(0.0, w, d);
      MulLe(w, 1.0, d);
    }
  }

  /** `d * c` lies within `d` of zero for a factor `c` in [-1, 1]. */
  lemma UnitBound(d: real, c: real)
    requires d >= 0.0 && -1.0 <= c <= 1.0
    ensures -d <= d * c <= d
  {
    if d > 0.0 {
      MulLe(c, 1.0, d);
      MulLe(-1.0, c, d);
    }
  }

  lemma MulNonNegative(a: real, b: real)
    requires a >= 0.0 && b >= 0.0
    ensures a * b >= 0.0
  {
  }

  lemma MulLeInt(a: int, b: int, m: int)
    requires m >= 0 && a <= b
    ensures a * m <= b * m
  {
    assert b * m - a * m == (b - a) * m;
  }

  /** The transcendental functions the router calls, all on angles in degrees
      (`math.cos(math.radians(a))` is `cosDeg(a)`,
      `math.degrees(math.atan2(y, x))` is `atan2Deg(y, x)`). */
  datatype MathLib = MathLib(
    cosDeg: real -> real,
    sinDeg: real -> real,
    atan2Deg: (real, real) -> real,
    sqrt: real -> real)

  /** The facts about `math` that the model relies on, and nothing more. */
  ghost predicate Sound(m: MathLib) {
    && (forall a :: -1.0 <= m.cosDeg(a) <= 1.0)
    && (forall a :: -1.0 <= m.sinDeg(a) <= 1.0)
    && m.cosDeg(0.0) == 1.0
    && m.sinDeg(0.0) == 0.0
    && (forall y, x :: -180.0 < m.atan2Deg(y, x) <= 180.0)
    && (forall x :: x > 0.0 ==> m.atan2Deg(0.0, x) == 0.0)
    && (forall y :: y > 0.0 ==> m.atan2Deg(y, 0.0) == 90.0)
    && (forall x :: x >= 0.0 ==> m.sqrt(x) >= 0.0 && m.sqrt(x) * m.sqrt(x) == x)
    && m.sqrt(0.0) == 0.0
  }

  /** A non-negative square root is below a bound exactly when its radicand is
      below the bound's square. */
  lemma SqrtBelow(m: MathLib, x: real, bound: real)
    requires Sound(m)
    requires x >= 0.0 && bound > 0.0
    ensures m.sqrt(x) < bound <==> x < bound * bound
  {
    SquareBelow(m.sqrt(x), bound, x);
  }

  lemma SquareBelow(s: real, b: real, x: real)
    requires s >= 0.0 && b > 0.0 && s * s == x
    ensures s < b <==> x < b * b
  {
    if s < b {
      MulLe(s, b, s + b);
    } else {
      MulLe(b, s, s + b);
    }
  }
}

=== FILE: paths.dfy ===
/** File-system paths and the part of the disk the router looks at.

  Paths are plain strings joined the way POSIX `os.path.join` joins them; they
  are compared as strings, without normalisation. A `Disk` records which paths
  are regular files (with the already parsed content of each) and which are
  directories.
 */
module Paths {

  /** POSIX `os.path.join(a, b)`: an absolute `b` replaces `a`; otherwise one
      separator is inserted unless `a` is empty or already ends with one. */
  function Join(a: string, b: string): (p: string)
    ensures |b| > 0 && b[0] == '/' ==> p == b
    ensures (|b| == 0 || b[0] != '/') ==> |p| >= |b| && p[|p| - |b|..] == b
    ensures (|b| == 0 || b[0] != '/') && |a| > 0 && a[|a| - 1] != '/' ==> p == a + "/" + b
  {
    if |b| > 0 && b[0] == '/' then b
    else if |a| == 0 || a[|a| - 1] == '/' then a + b
    else a + "/" + b
  }

  /** Joining onto a directory path without a trailing separator keeps that
      path as a prefix followed by exactly one separator. */
  lemma JoinUnder(dir: string, name: string)
    requires |dir| > 0 && dir[|dir| - 1] != '/'
    requires |name| == 0 || name[0] != '/'
    ensures Join(dir, name)[..|dir| + 1] == dir + "/"
    ensures Join(dir, name)[|dir| + 1..] == name
  {
  }

  /** What the process can see of the disk: each regular file with its parsed
      content, and the set of directories. */
  datatype Disk<T> = Disk(files: map<string, T>, dirs: set<string>) {

    /** No path is both a regular file and a directory. */
    predicate Valid() {
      files.Keys !! dirs
    }

    /** `os.path.isfile`. */
    predicate IsFile(path: string) {
      path in files
    }

    /** `os.path.isdir`. */
    predicate IsDir(path: string) {
      path in dirs
    }

    /** `os.path.exists`: a file or a directory. */
    predicate Exists(path: string) {
      IsFile(path) || IsDir(path)
    }
  }
}

=== FILE: polar.dfy ===
/** Boat-speed polars (polaire/polar.py).

  A polar is a table of boat speeds: one row per true wind angle (TWA), one
  column per true wind speed (TWS). `Load` models the constructor of the
  `Polar` class (option normalisation, file name, existence check); the CSV
  parsing is left to the `Disk`, whose files already hold parsed tables.
  `GetBsp` is the two-stage interpolation of `get_bsp`, with numpy's `min`,
  `clip` and `interp` written out.
 */
module Polar {
  import opened Wrappers
  import opened Numerics
  import Paths

  /** `os.path.join("data", "polaires")`. */
  const BaseDir: string := Paths.Join("data", "polaires")

  // ---------------------------------------------------------------------
  // Option names and file names
  // ---------------------------------------------------------------------

  /** Python's `str.isspace` for one character. */
  predicate IsSpace(c: char) {
    || c == ' ' || c == '\t' || c == '\n' || c == '\r'
    || c == '\U{B}' || c == '\U{C}'
    || ('\U{1C}' <= c <= '\U{1F}')
    || c == '\U{85}' || c == '\U{A0}' || c == '\U{1680}'
    || ('\U{2000}' <= c <= '\U{200A}')
    || c == '\U{2028}' || c == '\U{2029}' || c == '\U{202F}' || c == '\U{205F}' || c == '\U{3000}'
  }

  /** Every character is white space (vacuously so for ""). */
  predicate Blank(s: string) {
    forall i | 0 <= i < |s| :: IsSpace(s[i])
  }

  /** `s.lstrip()`: the leading white space removed. */
  function LStrip(s: string): (r: string)
    ensures |r| <= |s| && r == s[|s| - |r|..]
    ensures |r| == 0 || !IsSpace(r[0])
    ensures Blank(s[..|s| - |r|])
  {
    if |s| > 0 && IsSpace(s[0]) then LStrip(s[1..]) else s
  }

  /** `s.rstrip()`: the trailing white space removed. */
  function RStrip(s: string): (r: string)
    ensures |r| <= |s| && r == s[..|r|]
    ensures |r| == 0 || !IsSpace(r[|r| - 1])
    ensures Blank(s[|r|..])
  {
    if |s| > 0 && IsSpace(s[|s| - 1]) then RStrip(s[..|s| - 1]) else s
  }

  /** `s.strip()`. */
  function Strip(s: string): string {
    RStrip(LStrip(s))
  }

  /** `s.strip() == ""` holds exactly for the blank strings. */
  lemma StripEmptyIffBlank(s: string)
    ensures Strip(s) == "" <==> Blank(s)
  {
    var l := LStrip(s);
    assert s[..|s|] == s && l[0..] == l;
    if |l| > 0 {
      assert l[0] == s[|s| - |l|];
    }
  }

  predicate StartsWithNu(s: string) {
    |s| >= 2 && s[..2] == "nu"
  }

  /** The option normalisation of the `Polar` constructor: no option or a
      blank one means the bare hull "nu"; an option that does not start with
      "nu" gets the prefix "nu+". A non-blank option is not stripped. */
  function NormaliseOption(option: Option<string>): (o: string)
    ensures StartsWithNu(o)
    ensures option.None? || Blank(option.value) ==> o == "nu"
    ensures option.Some? && !Blank(option.value) ==>
              o == (if StartsWithNu(option.value) then option.value else "nu+" + option.value)
  {
    StripEmptyIffBlank(if option.Some? then option.value else "");
    var o := if option.None? || Strip(option.value) == "" then "nu" else option.value;
    if StartsWithNu(o) then o else "nu+" + o
  }

  /** Normalising twice is normalising once. */
  lemma NormaliseIdempotent(option: Option<string>)
    ensures NormaliseOption(Some(NormaliseOption(option))) == NormaliseOption(option)
  {
    var o := NormaliseOption(option);
    assert !IsSpace(o[0]);
    assert !Blank(o);
  }

  /** `<class>-<option>.csv`. */
  function Filename(boatClass: string, option: string): (f: string)
    ensures |f| == |boatClass| + |option| + 5
    ensures f[..|boatClass|] == boatClass
    ensures f[|boatClass|..|f| - 4] == "-" + option
    ensures f[|f| - 4..] == ".csv"
  {
    boatClass + "-" + option + ".csv"
  }

  /** For one boat class, different options name different files. */
  lemma FilenameInjective(boatClass: string, o1: string, o2: string)
    requires Filename(boatClass, o1) == Filename(boatClass, o2)
    ensures o1 == o2
  {
    var f := Filename(boatClass, o1);
    assert "-" + o1 == f[|boatClass|..|f| - 4] == "-" + o2;
    assert o1 == ("-" + o1)[1..];
    assert o2 == ("-" + o2)[1..];
  }

  /** The path the constructor opens. */
  function PolarPath(boatClass: string, option: Option<string>): string {
    Paths.Join(Paths.Join(BaseDir, boatClass), Filename(boatClass, NormaliseOption(option)))
  }

  /** For an ordinary class name the polar lives at
      `data/polaires/<class>/<class>-<option>.csv`. */
  lemma PolarPathShape(boatClass: string, option: Option<string>)
    requires |boatClass| > 0 && boatClass[0] != '/' && boatClass[|boatClass| - 1] != '/'
    ensures PolarPath(boatClass, option)
            == "data/polaires/" + boatClass + "/" + boatClass + "-" + NormaliseOption(option) + ".csv"
  {
    var o := NormaliseOption(option);
    var x := "data/polaires/" + boatClass + "/";
    assert PolarPath(boatClass, option) == x + Filename(boatClass, o) by {
      ClassDirectory(boatClass);
      FilenameStartsWithClass(boatClass, o);
    }
    Append4(x, boatClass, "-", o, ".csv");
  }

  /** The class directory is the base directory, a separator and the class. */
  lemma ClassDirectory(boatClass: string)
    requires |boatClass| > 0 && boatClass[0] != '/'
    ensures Paths.Join(BaseDir, boatClass) == "data/polaires/" + boatClass
  {
    assert BaseDir == "data/polaires";
    assert BaseDir + "/" == "data/polaires/";
    assert Paths.Join(BaseDir, boatClass) == BaseDir + "/" + boatClass;
  }

  /** A file name starts with the first character of its class. */
  lemma FilenameStartsWithClass(boatClass: string, o: string)
    requires |boatClass| > 0
    ensures Filename(boatClass, o)[0] == boatClass[0]
  {
    var f := Filename(boatClass, o);
    assert f[..|boatClass|] == boatClass;
    assert f[0] == f[..|boatClass|][0];
  }

  /** Appending a concatenation of four parts is appending the parts one by
      one. */
  lemma Append4(x: string, a: string, b: string, c: string, d: string)
    ensures x + (a + b + c + d) == x + a + b + c + d
  {
    assert x + (a + b + c + d) == (x + (a + b + c)) + d;
    assert x + (a + b + c) == (x + (a + b)) + c;
  }

  // ---------------------------------------------------------------------
  // The table
  // ---------------------------------------------------------------------

  /** The parsed CSV: the first column gives the TWA axis, the header of the
      other columns the TWS axis, and `bsp[i][j]` the speed at `twa[i]`,
      `tws[j]`. */
  datatype Table = Table(twa: seq<real>, tws: seq<real>, bsp: seq<seq<real>>)

  /** A data frame is rectangular: one row per TWA, one value per TWS. */
  predicate Shaped(t: Table) {
    && |t.bsp| == |t.twa|
    && forall i | 0 <= i < |t.bsp| :: |t.bsp[i]| == |t.tws|
  }

  /** The `Polar` constructor: the normalised path must exist, and must be a
      file for the CSV reader to succeed. */
  function Load(disk: Paths.Disk<Table>, boatClass: string, option: Option<string>): (r: Result<Table>)
    requires disk.Valid()
    ensures disk.IsDir(PolarPath(boatClass, option)) ==> r == Failure(IsADirectory(PolarPath(boatClass, option)))
    ensures !disk.Exists(PolarPath(boatClass, option)) <==> r == Failure(FileNotFound(PolarPath(boatClass, option)))
    ensures r.Success? <==> disk.IsFile(PolarPath(boatClass, option))
    ensures r.Success? ==> r.value == disk.files[PolarPath(boatClass, option)]
    ensures r.Failure? ==> r.error.FileNotFound? || r.error.IsADirectory?
  {
    var path := PolarPath(boatClass, option);
    if !disk.Exists(path) then Failure(FileNotFound(path))
    else if disk.IsFile(path) then Success(disk.files[path])
    else Failure(IsADirectory(path))
  }

  // ---------------------------------------------------------------------
  // numpy helpers
  // ---------------------------------------------------------------------

  /** `a.min()` of a non-empty array. */
  function SeqMin(s: seq<real>): (m: real)
    requires |s| > 0
    ensures m in s
    ensures forall i | 0 <= i < |s| :: m <= s[i]
  {
    if |s| == 1 then s[0] else Min(s[0], SeqMin(s[1..]))
  }

  /** `a.max()` of a non-empty array. */
  function SeqMax(s: seq<real>): (m: real)
    requires |s| > 0
    ensures m in s
    ensures forall i | 0 <= i < |s| :: s[i] <= m
  {
    if |s| == 1 then s[0] else Max(s[0], SeqMax(s[1..]))
  }

  predicate StrictlyAscending(s: seq<real>) {
    forall i, j | 0 <= i < j < |s| :: s[i] < s[j]
  }

  /** The index of the last sample point at or below `x`. */
  function LastAtMost(xp: seq<real>, x: real): (j: nat)
    requires |xp| > 0 && xp[0] <= x
    ensures j < |xp| && xp[j] <= x
    ensures forall k | j < k < |xp| :: x < xp[k]
  {
    if xp[|xp| - 1] <= x then |xp| - 1 else LastAtMost(xp[..|xp| - 1], x)
  }

  /** `numpy.interp(x, xp, fp)`: the end values outside the sample points,
      otherwise the straight line through the two sample points around `x`.
      For ascending `xp` the segment is the one numpy picks; numpy leaves the
      result unspecified for unsorted `xp`. */
  function Interp(x: real, xp: seq<real>, fp: seq<real>): (y: real)
    requires |xp| == |fp| > 0
    ensures SeqMin(fp) <= y <= SeqMax(fp)
  {
    if x < xp[0] then fp[0]
    else if x >= xp[|xp| - 1] then fp[|fp| - 1]
    else
      var j := LastAtMost(xp, x);
      Segment(fp[j], fp[j + 1], x - xp[j], xp[j + 1] - xp[j])
  }

  /** numpy's `slope * (x - xp[j]) + fp[j]` for the segment from `a` to `b`
      of width `q`, at distance `e` from its start: it lies between the
      segment's ends. */
  function Segment(a: real, b: real, e: real, q: real): (y: real)
    requires 0.0 <= e < q
    ensures Min(a, b) <= y <= Max(a, b)
  {
    var slope := (b - a) / q;
    var w := e / q;
    MulLe(e, q, 1.0 / q);
    assert slope * e == (b - a) * w;
    BlendBetween(a, b, w);
    slope * e + a
  }

  /** At a sample point of a strictly ascending axis, interpolation returns
      that sample. */
  lemma InterpAtNode(xp: seq<real>, fp: seq<real>, k: nat)
    requires |xp| == |fp| && k < |xp|
    requires StrictlyAscending(xp)
    ensures Interp(xp[k], xp, fp) == fp[k]
  {
    if 0 < k {
      assert xp[0] < xp[k];
    }
    if k < |xp| - 1 {
      assert xp[0] <= xp[k] < xp[|xp| - 1];
      var j := LastAtMost(xp, xp[k]);
      assert xp[j] <= xp[k];
      assert j == k;
      var q := xp[k + 1] - xp[k];
      assert q > 0.0;
      assert Interp(xp[k], xp, fp) == Segment(fp[k], fp[k + 1], 0.0, q);
      assert (fp[k + 1] - fp[k]) / q * 0.0 == 0.0;
    }
  }

  /** Column `i` of a rectangular matrix. */
  function Column(m: seq<seq<real>>, i: nat): (c: seq<real>)
    requires forall r | 0 <= r < |m| :: i < |m[r]|
    ensures |c| == |m|
    ensures forall r | 0 <= r < |m| :: c[r] == m[r][i]
  {
    seq(|m|, r requires 0 <= r < |m| => m[r][i])
  }

  /** Every cell of the matrix, row after row. */
  function Cells(m: seq<seq<real>>): seq<real> {
    if |m| == 0 then [] else m[0] + Cells(m[1..])
  }

  lemma {:induction false} CellIn(m: seq<seq<real>>, r: nat, c: nat)
    requires r < |m| && c < |m[r]|
    ensures m[r][c] in Cells(m)
  {
    if r > 0 {
      CellIn(m[1..], r - 1, c);
    }
  }

  // ---------------------------------------------------------------------
  // get_bsp
  // ---------------------------------------------------------------------

  /** The TWA query after `abs` and clipping to the axis. */
  function ClippedTwa(t: Table, twa: real): real
    requires |t.twa| > 0
  {
    Clip(Abs(twa), SeqMin(t.twa), SeqMax(t.twa))
  }

  /** The TWS query after clipping to the axis. */
  function ClippedTws(t: Table, tws: real): real
    requires |t.tws| > 0
  {
    Clip(tws, SeqMin(t.tws), SeqMax(t.tws))
  }

  /** First stage: the speed at TWA `a` for every tabulated wind speed. */
  function SpeedsAtTwa(t: Table, a: real): (s: seq<real>)
    requires Shaped(t) && |t.twa| > 0
    ensures |s| == |t.tws|
    ensures forall i | 0 <= i < |t.tws| :: s[i] == Interp(a, t.twa, Column(t.bsp, i))
  {
    seq(|t.tws|, i requires 0 <= i < |t.tws| => Interp(a, t.twa, Column(t.bsp, i)))
  }

  /** `Polar.get_bsp(tws, twa)`. An empty axis makes numpy's `min` raise; a
      result always lies between the smallest and the largest cell. */
  function GetBsp(t: Table, tws: real, twa: real): (r: Result<real>)
    requires Shaped(t)
    ensures r.Failure? <==> |t.twa| == 0 || |t.tws| == 0
    ensures r.Failure? ==> r.error.ValueError?
    ensures r.Success? ==> |Cells(t.bsp)| > 0 && SeqMin(Cells(t.bsp)) <= r.value <= SeqMax(Cells(t.bsp))
  {
    if |t.twa| == 0 || |t.tws| == 0 then Failure(ValueError("zero-size array to reduction operation"))
    else
      var speeds := SpeedsAtTwa(t, ClippedTwa(t, twa));
      var y := Interp(ClippedTws(t, tws), t.tws, speeds);
      WithinCells(t, speeds, ClippedTwa(t, twa));
      Success(y)
  }

  /** Every first-stage speed lies between the smallest and the largest cell. */
  lemma WithinCells(t: Table, speeds: seq<real>, a: real)
    requires Shaped(t) && |t.twa| > 0 && |t.tws| > 0
    requires speeds == SpeedsAtTwa(t, a)
    ensures |Cells(t.bsp)| > 0
    ensures SeqMin(Cells(t.bsp)) <= SeqMin(speeds) && SeqMax(speeds) <= SeqMax(Cells(t.bsp))
  {
    CellIn(t.bsp, 0, 0);
    var lo := SeqMin(Cells(t.bsp));
    var hi := SeqMax(Cells(t.bsp));
    forall i | 0 <= i < |speeds|
      ensures lo <= speeds[i] <= hi
    {
      var c := Column(t.bsp, i);
      forall r | 0 <= r < |c|
        ensures lo <= c[r] <= hi
      {
        CellIn(t.bsp, r, i);
      }
      assert SeqMin(c) in c && SeqMax(c) in c;
    }
    assert SeqMin(speeds) in speeds && SeqMax(speeds) in speeds;
  }

  /** `Polar.get_speed` is `get_bsp` under another name. */
  function GetSpeed(t: Table, tws: real, twa: real): (r: Result<real>)
    requires Shaped(t)
    ensures r == GetBsp(t, tws, twa)
  {
    GetBsp(t, tws, twa)
  }

  /** Port and starboard are the same: only `abs(twa)` is looked up. */
  lemma GetBspSymmetric(t: Table, tws: real, twa: real)
    requires Shaped(t)
    ensures GetBsp(t, tws, -twa) == GetBsp(t, tws, twa)
  {
    if |t.twa| > 0 {
      assert ClippedTwa(t, -twa) == ClippedTwa(t, twa);
    }
  }

  /** A wind speed beyond either end of the TWS axis reads as that end. */
  lemma GetBspClampsTws(t: Table, tws: real, twa: real)
    requires Shaped(t) && |t.tws| > 0
    ensures tws <= SeqMin(t.tws) ==> GetBsp(t, tws, twa) == GetBsp(t, SeqMin(t.tws), twa)
    ensures tws >= SeqMax(t.tws) ==> GetBsp(t, tws, twa) == GetBsp(t, SeqMax(t.tws), twa)
  {
    var lo := SeqMin(t.tws);
    var hi := SeqMax(t.tws);
    assert lo <= hi by { assert lo <= t.tws[0] <= hi; }
    if tws <= lo {
      assert ClippedTws(t, tws) == ClippedTws(t, lo);
    }
    if tws >= hi {
      assert ClippedTws(t, tws) == ClippedTws(t, hi);
    }
  }

  /** On an axis of non-negative angles, an angle beyond either end (on
      either tack) reads as that end. */
  lemma GetBspClampsTwa(t: Table, tws: real, twa: real)
    requires Shaped(t) && |t.twa| > 0
    requires SeqMin(t.twa) >= 0.0
    ensures Abs(twa) <= SeqMin(t.twa) ==> GetBsp(t, tws, twa) == GetBsp(t, tws, SeqMin(t.twa))
    ensures Abs(twa) >= SeqMax(t.twa) ==> GetBsp(t, tws, twa) == GetBsp(t, tws, SeqMax(t.twa))
  {
    var lo := SeqMin(t.twa);
    var hi := SeqMax(t.twa);
    assert lo <= hi by { assert lo <= t.twa[0] <= hi; }
    if Abs(twa) <= lo {
      assert ClippedTwa(t, twa) == ClippedTwa(t, lo);
    }
    if Abs(twa) >= hi {
      assert ClippedTwa(t, twa) == ClippedTwa(t, hi);
    }
  }

  /** On strictly ascending axes, a query exactly at a tabulated angle and
      wind speed returns the tabulated speed. The angle must be non-negative,
      since `abs` is taken first. */
  lemma GetBspAtNode(t: Table, i: nat, j: nat)
    requires Shaped(t)
    requires StrictlyAscending(t.twa) && StrictlyAscending(t.tws)
    requires i < |t.twa| && j < |t.tws|
    requires t.twa[i] >= 0.0
    ensures GetBsp(t, t.tws[j], t.twa[i]) == Success(t.bsp[i][j])
  {
    AscendingEnds(t.twa, i);
    AscendingEnds(t.tws, j);
    assert ClippedTwa(t, t.twa[i]) == t.twa[i];
    assert ClippedTws(t, t.tws[j]) == t.tws[j];
    var speeds := SpeedsAtTwa(t, t.twa[i]);
    forall c | 0 <= c < |t.tws|
      ensures speeds[c] == t.bsp[i][c]
    {
      InterpAtNode(t.twa, Column(t.bsp, c), i);
    }
    InterpAtNode(t.tws, speeds, j);
  }

  /** On a strictly ascending axis the minimum is the first sample and the
      maximum the last. */
  lemma AscendingEnds(s: seq<real>, k: nat)
    requires StrictlyAscending(s) && k < |s|
    ensures SeqMin(s) == s[0] && SeqMax(s) == s[|s| - 1]
    ensures SeqMin(s) <= s[k] <= SeqMax(s)
  {
    assert forall p | 0 < p < |s| :: s[0] < s[p];
    assert forall p | 0 <= p < |s| - 1 :: s[p] < s[|s| - 1];
  }
}

=== FILE: polar_search.dfy ===
/** The exhaustive integer-angle scans of `Polar` (polaire/polar.py):
  `best_twa`, `best_vmg_upwind` and `best_vmg_downwind`.

  All three walk a range of whole degrees in increasing order and keep a
  candidate only when it is strictly better than the best so far, so the
  first of several equal maxima wins. `ArgMax` is that loop, once.
 */
module PolarSearch {
  import opened Wrappers
  import opened Numerics
  import Polar

  /** `best` and `top` are what a first-wins scan of `score` over
      `lo .. hi - 1` from the score `init` ends with: no winner exactly when
      nothing beats `init`; otherwise the first angle of the largest score,
      and that score is above `init`; and nothing scanned beats `top`. */
  ghost predicate FirstMax(score: int -> real, lo: int, hi: int, init: real, best: Option<int>, top: real) {
    && (best.None? <==> forall k | lo <= k < hi :: score(k) <= init)
    && (best.None? ==> top == init)
    && (best.Some? ==>
          && lo <= best.value < hi
          && top == score(best.value)
          && init < top
          && forall k | lo <= k < best.value :: score(k) < top)
    && forall k | lo <= k < hi :: score(k) <= top
  }

  /** A first-wins scan of `score` over `lo .. hi - 1`, starting from the
      score `init` and no winner. */
  method ArgMax(lo: int, hi: int, score: int -> real, init: real) returns (best: Option<int>, top: real)
    ensures FirstMax(score, lo, hi, init, best, top)
  {
    best := None;
    top := init;
    var k := lo;
    while k < hi
      invariant lo <= k && (k <= hi || k == lo)
      invariant best.None? <==> forall i | lo <= i < k :: score(i) <= init
      invariant best.None? ==> top == init
      invariant best.Some? ==> lo <= best.value < k && top == score(best.value) && init < top
      invariant forall i | lo <= i < k :: score(i) <= top
      invariant best.Some? ==> forall i | lo <= i < best.value :: score(i) < top
      decreases hi - k
    {
      var s := score(k);
      if s > top {
        best := Some(k);
        top := s;
      }
      k := k + 1;
    }
  }

  /** The speed `get_bsp` gives at a whole-degree angle, on a table whose
      lookups succeed. */
  function Speed(t: Polar.Table, tws: real, twa: int): real
    requires Polar.Shaped(t) && |t.twa| > 0 && |t.tws| > 0
  {
    Polar.GetBsp(t, tws, twa as real).value
  }

  /** `Speed` as the score of a scan. */
  function SpeedScore(t: Polar.Table, tws: real): int -> real
    requires Polar.Shaped(t) && |t.twa| > 0 && |t.tws| > 0
  {
    a => Speed(t, tws, a)
  }

  /** What `best_twa` returns: the angle (None if no speed beat 0) and its
      speed. */
  datatype Pick = Pick(twa: Option<int>, bsp: real)

  /** The first angle of the scan from `int(min twa)` to `int(max twa)`. */
  function ScanFrom(t: Polar.Table): int
    requires |t.twa| > 0
  {
    Trunc(Polar.SeqMin(t.twa))
  }

  /** One past the last angle of that scan. */
  function ScanTo(t: Polar.Table): int
    requires |t.twa| > 0
  {
    Trunc(Polar.SeqMax(t.twa)) + 1
  }

  /** `Polar.best_twa(tws)`: the fastest whole-degree angle of the TWA axis's
      range, the first one on a tie; an empty axis raises. */
  method BestTwa(t: Polar.Table, tws: real) returns (r: Result<Pick>)
    requires Polar.Shaped(t)
    ensures r.Failure? <==> |t.twa| == 0 || |t.tws| == 0
    ensures r.Success? ==> FirstMax(SpeedScore(t, tws), ScanFrom(t), ScanTo(t), 0.0, r.value.twa, r.value.bsp)
  {
    if |t.twa| == 0 || |t.tws| == 0 {
      return Failure(ValueError("zero-size array to reduction operation"));
    }
    var best, top := ArgMax(ScanFrom(t), ScanTo(t), SpeedScore(t, tws), 0.0);
    return Success(Pick(best, top));
  }

  /** What the two VMG scans return. */
  datatype VmgPick = VmgPick(twa: Option<int>, bsp: real, vmg: real)

  /** The initial VMG of both scans. */
  const NoVmg: real := -1_000_000_000.0

  /** The velocity made good towards the wind at a whole-degree angle. */
  function UpwindVmg(t: Polar.Table, m: MathLib, tws: real, twa: int): real
    requires Polar.Shaped(t) && |t.twa| > 0 && |t.tws| > 0
  {
    Speed(t, tws, twa) * m.cosDeg(twa as real)
  }

  /** The velocity made good away from the wind at a whole-degree angle. */
  function DownwindVmg(t: Polar.Table, m: MathLib, tws: real, twa: int): real
    requires Polar.Shaped(t) && |t.twa| > 0 && |t.tws| > 0
  {
    Speed(t, tws, twa) * m.cosDeg(180.0 - twa as real)
  }

  /** The scan record of a VMG scan that ended with `best` and `top`: the
      speed is looked up again at the winner, and stays 0 without one. */
  function VmgRecord(t: Polar.Table, tws: real, best: Option<int>, top: real): (p: VmgPick)
    requires Polar.Shaped(t) && |t.twa| > 0 && |t.tws| > 0
  {
    VmgPick(best, if best.Some? then Speed(t, tws, best.value) else 0.0, top)
  }

  /** `UpwindVmg` as the score of a scan. */
  function UpwindScore(t: Polar.Table, m: MathLib, tws: real): int -> real
    requires Polar.Shaped(t) && |t.twa| > 0 && |t.tws| > 0
  {
    a => UpwindVmg(t, m, tws, a)
  }

  /** `DownwindVmg` as the score of a scan. */
  function DownwindScore(t: Polar.Table, m: MathLib, tws: real): int -> real
    requires Polar.Shaped(t) && |t.twa| > 0 && |t.tws| > 0
  {
    a => DownwindVmg(t, m, tws, a)
  }

  /** `Polar.best_vmg_upwind(tws)`: the best VMG towards the wind over the
      angles 30 to 90. */
  method BestVmgUpwind(t: Polar.Table, m: MathLib, tws: real) returns (r: Result<VmgPick>)
    requires Polar.Shaped(t)
    ensures r.Failure? <==> |t.twa| == 0 || |t.tws| == 0
    ensures r.Success? ==> FirstMax(UpwindScore(t, m, tws), 30, 91, NoVmg, r.value.twa, r.value.vmg)
    ensures r.Success? ==> r.value.bsp == (if r.value.twa.Some? then Speed(t, tws, r.value.twa.value) else 0.0)
    ensures r.Success? && r.value.twa.Some? ==> 30 <= r.value.twa.value <= 90
  {
    if |t.twa| == 0 || |t.tws| == 0 {
      return Failure(ValueError("zero-size array to reduction operation"));
    }
    var best, top := ArgMax(30, 91, UpwindScore(t, m, tws), NoVmg);
    return Success(VmgRecord(t, tws, best, top));
  }

  /** `Polar.best_vmg_downwind(tws)`: the best VMG away from the wind over the
      angles 90 to 150. */
  method BestVmgDownwind(t: Polar.Table, m: MathLib, tws: real) returns (r: Result<VmgPick>)
    requires Polar.Shaped(t)
    ensures r.Failure? <==> |t.twa| == 0 || |t.tws| == 0
    ensures r.Success? ==> FirstMax(DownwindScore(t, m, tws), 90, 151, NoVmg, r.value.twa, r.value.vmg)
    ensures r.Success? ==> r.value.bsp == (if r.value.twa.Some? then Speed(t, tws, r.value.twa.value) else 0.0)
    ensures r.Success? && r.value.twa.Some? ==> 90 <= r.value.twa.value <= 150
  {
    if |t.twa| == 0 || |t.tws| == 0 {
      return Failure(ValueError("zero-size array to reduction operation"));
    }
    var best, top := ArgMax(90, 151, DownwindScore(t, m, tws), NoVmg);
    return Success(VmgRecord(t, tws, best, top));
  }
}

=== FILE: scoring.dfy ===
/** The heading score of routing/scoring.py.

  `score_heading` ranks a candidate heading: twice its VMG towards the
  waypoint, a bonus for strong wind, a bonus for a wind angle near the beam,
  minus a manoeuvre penalty and half the angle off the waypoint's bearing.
  Greater is better.

  The source asks the waypoint for `waypoint.bearing_from(lat, lon)`, a
  method the engine's `Waypoint` does not have; the bearing is therefore a
  parameter here. Angles are in degrees.
 */
module Scoring {
  import opened Numerics
  import Engine

  /** `normalize_angle(a)`: the direction `a` in [0, 360). */
  function NormalizeAngle(a: real): (r: real)
    ensures 0.0 <= r < 360.0
  {
    PyMod(a + 360.0, 360.0)
  }

  /** Normalising keeps the direction: the result differs from the input by
      whole turns, and a direction already in [0, 360) is left alone. */
  lemma NormalizeAngleKeepsDirection(a: real) returns (turns: int)
    ensures NormalizeAngle(a) == a + turns as real * 360.0
    ensures 0.0 <= a < 360.0 ==> NormalizeAngle(a) == a && turns == 0
  {
    var q := PyModQuotient(a + 360.0, 360.0);
    turns := -(q - 1);
    if 0.0 <= a < 360.0 {
      PyModUnique(a + 360.0, 360.0, a, 1);
      assert turns == 0 by {
        assert (q - 1) as real * 360.0 == 0.0;
        if q - 1 > 0 {
          MulLe(1.0, (q - 1) as real, 360.0);
        } else if q - 1 < 0 {
          MulLe((q - 1) as real, -1.0, 360.0);
        }
      }
    }
  }

  /** Normalising twice is normalising once. */
  lemma NormalizeAngleIdempotent(a: real)
    ensures NormalizeAngle(NormalizeAngle(a)) == NormalizeAngle(a)
  {
    var _ := NormalizeAngleKeepsDirection(NormalizeAngle(a));
  }

  /** The smaller of a turn's remainder and its complement. */
  function Fold(d: real): real {
    Min(d, 360.0 - d)
  }

  /** `angle_diff(a, b)` of the scoring module: the angle between two
      directions, in [0, 180]. */
  function AngleDiff(a: real, b: real): (d: real)
    ensures 0.0 <= d <= 180.0
  {
    Fold(PyMod(Abs(a - b), 360.0))
  }

  /** The scoring module and the engine measure the angle between two
      directions the same way. */
  lemma AngleDiffAgrees(a: real, b: real)
    ensures AngleDiff(a, b) == Engine.AngleDiff(a, b)
  {
  }

  /** Reversing a direction difference does not change the folded remainder. */
  lemma FoldOfNegation(x: real)
    ensures Fold(PyMod(-x, 360.0)) == Fold(PyMod(x, 360.0))
  {
    var q := PyModQuotient(x, 360.0);
    var r := PyMod(x, 360.0);
    if r == 0.0 {
      assert -x == 0.0 + (-q) as real * 360.0;
      PyModUnique(-x, 360.0, 0.0, -q);
    } else {
      assert -x == (360.0 - r) + (-q - 1) as real * 360.0;
      PyModUnique(-x, 360.0, 360.0 - r, -q - 1);
    }
  }

  /** The angle between two directions depends only on their signed
      difference, folded. */
  lemma AngleDiffOfDifference(a: real, b: real)
    ensures AngleDiff(a, b) == Fold(PyMod(a - b, 360.0))
  {
    if a - b < 0.0 {
      FoldOfNegation(a - b);
    }
  }

  /** Turning a heading by whole turns does not change its angle to any
      other direction. */
  lemma {:induction false} AngleDiffPeriodic(a: real, b: real, k: int)
    ensures AngleDiff(a + k as real * 360.0, b) == AngleDiff(a, b)
  {
    AngleDiffOfDifference(a + k as real * 360.0, b);
    AngleDiffOfDifference(a, b);
    assert a + k as real * 360.0 - b == (a - b) + k as real * 360.0;
    PyModPeriodic(a - b, k, 360.0);
  }

  /** The angle between two directions does not depend on their order. */
  lemma AngleDiffSymmetric(a: real, b: real)
    ensures AngleDiff(a, b) == AngleDiff(b, a)
  {
    assert Abs(a - b) == Abs(b - a);
  }

  /** The beam-reach bonus of a true wind angle in [0, 180]. */
  function OrientationBonus(twa: real): (bonus: real)
    requires 0.0 <= twa <= 180.0
    ensures 0.0 <= bonus <= 9.0
  {
    Max(0.0, 90.0 - Abs(90.0 - twa)) * 0.1
  }

  /** The bonus peaks on the beam and vanishes head to wind and dead
      downwind; it rises towards the beam from either side. */
  lemma OrientationBonusShape(x: real, y: real)
    requires 0.0 <= x <= y <= 180.0
    ensures OrientationBonus(90.0) == 9.0
    ensures OrientationBonus(0.0) == 0.0 && OrientationBonus(180.0) == 0.0
    ensures y <= 90.0 ==> OrientationBonus(x) <= OrientationBonus(y)
    ensures 90.0 <= x ==> OrientationBonus(x) >= OrientationBonus(y)
    ensures OrientationBonus(x) == OrientationBonus(180.0 - x)
  {
  }

  /** The penalty for pointing `diff` degrees off the waypoint's bearing. */
  function DistancePenalty(diff: real): (p: real)
    requires 0.0 <= diff <= 180.0
    ensures 0.0 <= p <= 90.0
    ensures diff == 0.0 <==> p == 0.0
  {
    diff * 0.5
  }

  /** The inputs of `score_heading` other than the `math` module. */
  datatype Situation = Situation(
    heading: real,
    bearingWp: real,
    tws: real,
    twd: real,
    bsp: real,
    manoeuvrePenalty: real)

  /** `score_heading(heading, state, waypoint, tws, twd, bsp,
      manoeuvre_penalty)`. */
  function ScoreHeading(m: MathLib, s: Situation): (score: real)
    ensures Sound(m) && s.bsp >= 0.0 ==> score <= s.bsp * 2.0 + s.tws * 0.3 + 9.0 - s.manoeuvrePenalty
    ensures Sound(m) && s.bsp >= 0.0 ==> score >= -s.bsp * 2.0 + s.tws * 0.3 - s.manoeuvrePenalty - 90.0
  {
    var diffWp := AngleDiff(s.heading, s.bearingWp);
    VmgWithinSpeed(m, s.bsp, diffWp);
    var vmg := Vmg(m, s.bsp, diffWp);
    var windBonus := s.tws * 0.3;
    var twa := AngleDiff(s.heading, s.twd);
    vmg * 2.0 + windBonus + OrientationBonus(twa) - s.manoeuvrePenalty - DistancePenalty(diffWp)
  }

  /** The speed made good towards a bearing `diff` degrees off the heading. */
  function Vmg(m: MathLib, bsp: real, diff: real): real {
    bsp * m.cosDeg(diff)
  }

  /** The VMG never exceeds the speed, nor falls below its opposite. */
  lemma VmgWithinSpeed(m: MathLib, bsp: real, diff: real)
    ensures Sound(m) && bsp >= 0.0 ==> -bsp <= Vmg(m, bsp, diff) <= bsp
    ensures Sound(m) && diff == 0.0 ==> Vmg(m, bsp, diff) == bsp
  {
    if Sound(m) {
      var c := m.cosDeg(diff);
      assert -1.0 <= c <= 1.0;
      assert Vmg(m, bsp, diff) == bsp * c;
      if bsp >= 0.0 {
        UnitBound(bsp, c);
      }
      if diff == 0.0 {
        assert c == 1.0;
      }
    }
  }

  /** A manoeuvre penalty comes off the score one for one. */
  lemma PenaltyComesOff(m: MathLib, s: Situation, extra: real)
    ensures ScoreHeading(m, s.(manoeuvrePenalty := s.manoeuvrePenalty + extra)) == ScoreHeading(m, s) - extra
  {
  }

  /** Stronger wind raises the score by 0.3 per knot, whatever the heading. */
  lemma WindRaisesScore(m: MathLib, s: Situation, extra: real)
    ensures ScoreHeading(m, s.(tws := s.tws + extra)) == ScoreHeading(m, s) + extra * 0.3
  {
  }

  /** Heading straight for the waypoint earns the whole boat speed as VMG
      and no distance penalty. */
  lemma StraightAtWaypoint(m: MathLib, s: Situation)
    requires Sound(m)
    requires s.heading == s.bearingWp
    ensures ScoreHeading(m, s) == s.bsp * 2.0 + s.tws * 0.3 + OrientationBonus(AngleDiff(s.heading, s.twd)) - s.manoeuvrePenalty
  {
    var diff := AngleDiff(s.heading, s.bearingWp);
    assert diff == 0.0;
    assert Vmg(m, s.bsp, diff) == s.bsp by {
      assert m.cosDeg(0.0) == 1.0;
    }
  }

  /** Headings a whole number of turns apart score the same. */
  lemma ScoreIgnoresTurns(m: MathLib, s: Situation, k: int)
    ensures ScoreHeading(m, s.(heading := s.heading + k as real * 360.0)) == ScoreHeading(m, s)
  {
    AngleDiffPeriodic(s.heading, s.bearingWp, k);
    AngleDiffPeriodic(s.heading, s.twd, k);
  }
}

=== FILE: stamina.dfy ===
/** Crew fatigue (routing/stamina.py).

  A `Model` is the stamina level together with the rule document it was built
  from. The Python class mutates `self.stamina`; here every operation returns
  the next model, and returns the exception the source would raise instead of
  a model when a lookup fails.
 */
module Stamina {
  import opened Wrappers
  import opened Numerics

  /** Where the source reads its rule document. */
  const RulesFile: string := "Pénalités_files/stamina.json"

  const FullStamina: real := 100.0

  /** One entry of `consumption.winds`: from `threshold` knots up, costs are
      multiplied by `factor`. The threshold is the integer the source obtains
      with `int(key)`. */
  datatype WindRule = WindRule(threshold: int, factor: real)

  /** The `recovery` section of the rule document. */
  datatype Recovery = Recovery(points: real, loTime: real, hiTime: real)

  /** The rule document: base cost per manoeuvre name, the wind table in
      document order, the recovery curve, and the speed impact at stamina 0
      and at stamina 100. */
  datatype Rules = Rules(
    costs: map<string, real>,
    winds: seq<WindRule>,
    recovery: Recovery,
    impactAt0: real,
    impactAt100: real)

  datatype Model = Model(stamina: real, rules: Rules)

  /** `StaminaModel(stamina)`: loading fails when the rule document is absent
      (`rulesOnDisk` is `None`). */
  function New(rulesOnDisk: Option<Rules>, stamina: real := FullStamina): (r: Result<Model>)
    ensures rulesOnDisk.None? <==> r == Failure(FileNotFound(RulesFile))
    ensures r.Success? ==> r.value.rules == rulesOnDisk.value && r.value.stamina == stamina
  {
    match rulesOnDisk
    case None => Failure(FileNotFound(RulesFile))
    case Some(rules) => Success(Model(stamina, rules))
  }

  /** A model built with the default argument starts fully rested. */
  lemma NewStartsFull(rules: Rules)
    ensures New(Some(rules)) == Success(Model(100.0, rules))
  {
  }

  predicate Applies(rule: WindRule, wind: real) {
    wind >= rule.threshold as real
  }

  /** The source's loop over the wind table, from the current position on:
      every applicable rule overwrites the factor found so far. */
  function WindFactorFrom(winds: seq<WindRule>, wind: real, factor: real): real
    decreases |winds|
  {
    if |winds| == 0 then factor
    else WindFactorFrom(winds[1..], wind, if Applies(winds[0], wind) then winds[0].factor else factor)
  }

  /** `_wind_factor(wind)`: the factor of the last rule, in table order, whose
      threshold is at most the wind; 1 when no threshold qualifies. */
  function WindFactor(winds: seq<WindRule>, wind: real): (f: real)
    ensures (forall j | 0 <= j < |winds| :: !Applies(winds[j], wind)) ==> f == 1.0
    ensures forall i | IsLastApplicable(winds, wind, i) :: f == winds[i].factor
  {
    WindFactorFromIsLast(winds, wind, 1.0);
    WindFactorFrom(winds, wind, 1.0)
  }

  /** The rule that decides the wind factor: the last applicable one in table
      order. */
  ghost predicate IsLastApplicable(winds: seq<WindRule>, wind: real, i: int) {
    && 0 <= i < |winds|
    && Applies(winds[i], wind)
    && forall j | i < j < |winds| :: !Applies(winds[j], wind)
  }

  /** The wind factor is that of the last applicable rule, or the running
      value when no rule applies. */
  lemma {:induction false} WindFactorFromIsLast(winds: seq<WindRule>, wind: real, factor: real)
    ensures (forall j | 0 <= j < |winds| :: !Applies(winds[j], wind)) ==>
              WindFactorFrom(winds, wind, factor) == factor
    ensures forall i | IsLastApplicable(winds, wind, i) ::
              WindFactorFrom(winds, wind, factor) == winds[i].factor
    decreases |winds|
  {
    if |winds| > 0 {
      var next := if Applies(winds[0], wind) then winds[0].factor else factor;
      WindFactorFromIsLast(winds[1..], wind, next);
      forall i | IsLastApplicable(winds, wind, i)
        ensures WindFactorFrom(winds, wind, factor) == winds[i].factor
      {
        if i > 0 {
          assert IsLastApplicable(winds[1..], wind, i - 1);
        } else {
          assert forall j | 0 <= j < |winds[1..]| :: !Applies(winds[1..][j], wind);
        }
      }
      if forall j | 0 <= j < |winds| :: !Applies(winds[j], wind) {
        assert !Applies(winds[0], wind);
        assert forall j | 0 <= j < |winds[1..]| :: !Applies(winds[1..][j], wind);
      }
    }
  }

  /** With non-negative multipliers the wind factor is non-negative. */
  lemma {:induction false} WindFactorFromNonNegative(winds: seq<WindRule>, wind: real, factor: real)
    requires factor >= 0.0
    requires forall j | 0 <= j < |winds| :: winds[j].factor >= 0.0
    ensures WindFactorFrom(winds, wind, factor) >= 0.0
    decreases |winds|
  {
    if |winds| > 0 {
      WindFactorFromNonNegative(winds[1..], wind, if Applies(winds[0], wind) then winds[0].factor else factor);
    }
  }

  /** `consume(manoeuvre_type, wind)`: the manoeuvre's base cost, scaled by the
      wind factor, is taken off stamina, which never goes below zero. An
      unknown manoeuvre name is a `KeyError`. */
  function Consume(m: Model, manoeuvre: string, wind: real): (r: Result<Model>)
    ensures manoeuvre !in m.rules.costs <==> r == Failure(KeyError(manoeuvre))
    ensures r.Success? ==> r.value.rules == m.rules
    ensures r.Success? ==> r.value.stamina >= 0.0
    ensures r.Success? ==>
              var cost := m.rules.costs[manoeuvre] * WindFactor(m.rules.winds, wind);
              && (m.stamina - cost >= 0.0 ==> r.value.stamina == m.stamina - cost)
              && (m.stamina - cost < 0.0 ==> r.value.stamina == 0.0)
  {
    if manoeuvre !in m.rules.costs then Failure(KeyError(manoeuvre))
    else
      var cost := m.rules.costs[manoeuvre] * WindFactor(m.rules.winds, wind);
      Success(m.(stamina := Max(0.0, m.stamina - cost)))
  }

  /** The rule document charges nothing negative and recovers nothing
      negative, and its recovery time constant is positive. */
  ghost predicate NonNegativeRules(rules: Rules) {
    && (forall k | k in rules.costs :: rules.costs[k] >= 0.0)
    && (forall j | 0 <= j < |rules.winds| :: rules.winds[j].factor >= 0.0)
    && rules.recovery.points >= 0.0
    && rules.recovery.loTime > 0.0
  }

  /** With non-negative costs, consuming never raises a non-negative stamina. */
  lemma ConsumeNeverIncreases(m: Model, manoeuvre: string, wind: real)
    requires NonNegativeRules(m.rules)
    requires m.stamina >= 0.0
    requires manoeuvre in m.rules.costs
    ensures Consume(m, manoeuvre, wind).Success?
    ensures 0.0 <= Consume(m, manoeuvre, wind).value.stamina <= m.stamina
  {
    var factor := WindFactor(m.rules.winds, wind);
    WindFactorFromNonNegative(m.rules.winds, wind, 1.0);
    assert factor >= 0.0;
    var base := m.rules.costs[manoeuvre];
    assert base >= 0.0;
    MulNonNegative(base, factor);
  }

  /** The time over which the recovery rate is spread:
      `max(lo, min(hi, minutes))`. */
  function RecoveryTime(recovery: Recovery, minutes: real): (t: real)
    ensures t >= recovery.loTime
    ensures recovery.loTime <= recovery.hiTime ==> t <= recovery.hiTime
    ensures recovery.loTime <= minutes <= recovery.hiTime ==> t == minutes
    ensures recovery.loTime <= recovery.hiTime <= minutes ==> t == recovery.hiTime
    ensures minutes <= recovery.loTime ==> t == recovery.loTime
    ensures recovery.loTime > recovery.hiTime ==> t == recovery.loTime
  {
    Max(recovery.loTime, Min(recovery.hiTime, minutes))
  }

  /** `recover(minutes, wind)`: stamina gains
      `points * minutes / max(lo, min(hi, minutes))`, capped at 100. The wind
      is not used. A zero recovery time is a division by zero. */
  function Recover(m: Model, minutes: real, wind: real): (r: Result<Model>)
    ensures RecoveryTime(m.rules.recovery, minutes) == 0.0 <==> r == Failure(ZeroDivision)
    ensures r.Success? ==> r.value.rules == m.rules
    ensures r.Success? ==> r.value.stamina <= FullStamina
    ensures r.Success? ==>
              var gained := m.rules.recovery.points / RecoveryTime(m.rules.recovery, minutes) * minutes;
              && (m.stamina + gained <= FullStamina ==> r.value.stamina == m.stamina + gained)
              && (m.stamina + gained > FullStamina ==> r.value.stamina == FullStamina)
  {
    var t := RecoveryTime(m.rules.recovery, minutes);
    if t == 0.0 then Failure(ZeroDivision)
    else
      var rate := m.rules.recovery.points / t;
      var gained := rate * minutes;
      Success(m.(stamina := Min(FullStamina, m.stamina + gained)))
  }

  lemma Nonneg(a: real, b: real, c: real)
    requires a >= 0.0 && b > 0.0 && c >= 0.0
    ensures a / b * c >= 0.0
  {
  }

  /** Resting a non-negative time never lowers stamina. */
  lemma RecoverNeverDecreases(m: Model, minutes: real, wind: real)
    requires NonNegativeRules(m.rules)
    requires minutes >= 0.0
    requires m.stamina <= FullStamina
    ensures Recover(m, minutes, wind).Success?
    ensures m.stamina <= Recover(m, minutes, wind).value.stamina <= FullStamina
  {
    var t := RecoveryTime(m.rules.recovery, minutes);
    Nonneg(m.rules.recovery.points, t, minutes);
  }

  /** `speed_factor()`: the impact value at stamina 0 below, the one at 100
      above, and the linear blend `i100 + (i0 - i100) * (1 - s/100)` between. */
  function SpeedFactor(m: Model): (f: real)
    ensures m.stamina <= 0.0 ==> f == m.rules.impactAt0
    ensures m.stamina >= FullStamina ==> f == m.rules.impactAt100
    ensures Min(m.rules.impactAt0, m.rules.impactAt100) <= f <= Max(m.rules.impactAt0, m.rules.impactAt100)
  {
    var i0 := m.rules.impactAt0;
    var i100 := m.rules.impactAt100;
    if m.stamina <= 0.0 then i0
    else if m.stamina >= FullStamina then i100
    else
      Lerp(i100, i0, 1.0 - m.stamina / 100.0)
  }

  /** The speed factor is the straight line from the stamina-0 impact to the
      stamina-100 impact, evaluated at the stamina clamped to [0, 100]. */
  lemma SpeedFactorIsClampedLerp(m: Model)
    ensures SpeedFactor(m) == Lerp(m.rules.impactAt0, m.rules.impactAt100, Clip(m.stamina, 0.0, 100.0) / 100.0)
  {
    var i0 := m.rules.impactAt0;
    var i100 := m.rules.impactAt100;
    var s := Clip(m.stamina, 0.0, 100.0);
    if 0.0 < m.stamina < FullStamina {
      assert s == m.stamina;
      assert i100 + (i0 - i100) * (1.0 - s / 100.0) == i0 + (i100 - i0) * (s / 100.0);
    }
  }

  /** A stamina event: one `consume` or one `recover` call. */
  datatype Event = Consumed(manoeuvre: string, wind: real) | Recovered(minutes: real, wind: real)

  function Step(m: Model, e: Event): Result<Model> {
    match e
    case Consumed(manoeuvre, wind) => Consume(m, manoeuvre, wind)
    case Recovered(minutes, wind) => Recover(m, minutes, wind)
  }

  /** The events applied in order; the first exception ends the run. */
  function Replay(m: Model, events: seq<Event>): Result<Model>
    decreases |events|
  {
    if |events| == 0 then Success(m)
    else
      var next :- Step(m, events[0]);
      Replay(next, events[1..])
  }

  ghost predicate RestsForward(events: seq<Event>) {
    forall i | 0 <= i < |events| :: events[i].Recovered? ==> events[i].minutes >= 0.0
  }

  /** From a stamina in [0, 100], any sequence of consumptions and
      non-negative rests under a non-negative rule document stays in
      [0, 100]. */
  lemma {:induction false} ReplayStaysInRange(m: Model, events: seq<Event>)
    requires NonNegativeRules(m.rules)
    requires 0.0 <= m.stamina <= FullStamina
    requires RestsForward(events)
    ensures Replay(m, events).Success? ==>
              && 0.0 <= Replay(m, events).value.stamina <= FullStamina
              && Replay(m, events).value.rules == m.rules
    decreases |events|
  {
    if |events| > 0 {
      var e := events[0];
      match e {
        case Consumed(manoeuvre, wind) =>
          if manoeuvre in m.rules.costs {
            ConsumeNeverIncreases(m, manoeuvre, wind);
          }
        case Recovered(minutes, wind) =>
          RecoverNeverDecreases(m, minutes, wind);
      }
      var next := Step(m, e);
      if next.Success? {
        assert RestsForward(events[1..]) by {
          forall i | 0 <= i < |events[1..]| && events[1..][i].Recovered?
            ensures events[1..][i].minutes >= 0.0
          {
            assert events[1..][i] == events[i + 1];
          }
        }
        ReplayStaysInRange(next.value, events[1..]);
      }
    }
  }
}

=== FILE: wrappers.dfy ===
/** Failure-compatible wrappers and the exceptions the router can raise.

  Python signals failure by raising; the model returns a `Result` whose
  `Failure` carries the exception the source would raise, so that error
  paths are part of every contract instead of being excluded by `requires`.
 */
module Wrappers {

  /** Python's `None` versus a present value. */
  datatype Option<+T> = None | Some(value: T) {

    function GetOr(default: T): T {
      match this
      case Some(v) => v
      case None => default
    }
  }

  /** The exceptions raised by the modelled code. */
  datatype Exception =
    | FileNotFound(path: string)
    | IsADirectory(path: string)
    | KeyError(key: string)
    | ValueError(message: string)
    | IndexError
    | ZeroDivision
    | TypeError(message: string)

  /** A value, or the exception that interrupted its computation. */
  datatype Result<+T> = Success(value: T) | Failure(error: Exception) {

    predicate IsFailure() {
      Failure?
    }

    function PropagateFailure<U>(): Result<U>
      requires Failure?
    {
      Failure(error)
    }

    function Extract(): T
      requires Success?
    {
      value
    }
  }
}
